=== FILE: README.md ===
# quagga matrix handles in Dafny

A model of the host side of quagga's GPU matrix layer. It covers two parts:

- `GpuMatrix`: a handle onto column-major device memory. The model covers what the handle decides on the host before any device work is enqueued:
  - addressing of elements, rows and columns;
  - the views `__getitem__` returns, `ravel` and `reshape`;
  - ownership and the lazily cached tensor descriptor;
  - dtype resolution, plus the shape bookkeeping of `from_npa`, `empty`, `empty_like`, `to_device` and `__setitem__`;
  - the choice between flat and pitched `copy_to`;
  - the shape checks of stacking, splitting, tiling and broadcasting;
  - which BLAS or elementwise kernel each operation chooses;
  - the per-context scratch pool for device pointer tables.
- `MatrixList`: a list of matrices with a settable logical length.

Kernels are not executed. A result names the kernel and the extents and addresses it is handed. The one exception is `tile`, whose loops are plain copies. Its effect on device memory is modelled on a map from byte address to value.

Modules:

- `Py` (py.dfy) holds the Python semantics the code relies on:
  - `Option`, and exceptions as `Result`;
  - subscript objects and truthiness;
  - Python 2 list slicing.
- `MatrixList` (matrix_list.dfy) is the list with a logical length. It is immutable, so `set_length` returns the updated record.
- `GpuMatrix` (gpu_matrix.dfy) covers:
  - the handle record, dtypes, addressing and views;
  - ownership and the descriptor cache;
  - allocation and transfer bookkeeping, `__setitem__` and `copy_to`.
- `MatrixChecks` (matrix_checks.dfy) covers:
  - stack, split and tile validation;
  - the `tile` copy loop over device memory;
  - broadcast branches and kernel dispatch.
- `TempMemory` (temp_memory.dfy) covers `_get_temp_memory` and the callers that upload pointer tables into it.

Conventions:

- `data` is the byte address of element (0, 0).
- Both element types are 4 bytes (`ElemSize`). A device pointer is 8 bytes (`PointerSize`).
- Element (i, j) is at index `nrows * j + i`.
- The Python object being called is the parameter `m` or `whole`.
- The allocator's pointer, the current device and `cuda_malloc`'s result are parameters.

Three facts about the code that shape the model:

- The scratch pool is sized to the request that last made it grow, plus 10. That covers every request (`TempMemory.FromEmptyPool`), but it is not necessarily the largest request plus 10.
- Stacking and splitting pass host ctypes arrays to their kernels directly. Only `batch_horizontal_stack` and the single-table callers (`add_sum`, `sequentially_tile`, ...) upload tables into the pool.
- Every table of data pointers is a ctypes array of `POINTER(c_dtype)`. ctypes raises TypeError for a matrix whose element type differs from the table's, and IndexError for more matrices than slots. It stores the entries in order, so the first bad entry decides which (`GpuMatrix.PointerTable`).

## Model

| member | source | states |
|---|---|---|
| MatrixList.New | quagga/matrix/MatrixList.py:2-4 | A new list's logical length is the number of matrices; `len` reports it and iteration yields every matrix |
| MatrixList.SetLength | quagga/matrix/MatrixList.py:6-7 | Only the logical length changes; `len` then reports any non-negative n, and iteration yields the first n matrices |
| MatrixList.Len | quagga/matrix/MatrixList.py:23-24 | `len` returns the logical length itself when it is non-negative, and raises ValueError when it is negative |
| MatrixList.Iter | quagga/matrix/MatrixList.py:20-21 | Iteration yields the storage prefix of the logical length. A length beyond the storage yields all of it; a negative length counts back from the end or yields nothing |
| MatrixList.GetItem | quagga/matrix/MatrixList.py:9-18 | An int key k in [-length, length) selects position k, or length + k for negative k. It gives the matrix at that position when the storage reaches it, and IndexError when it does not, whatever the length. Other ints raise IndexError. A slice may fail only on a zero step (ValueError) and yields only stored matrices. Any other key raises TypeError |
| MatrixList.WrapIndex | quagga/matrix/MatrixList.py:13-14 | For k in [-n, n), `k % n` is k itself or k + n |
| MatrixList.EmptyListRejectsEveryInt | quagga/matrix/MatrixList.py:13-16 | With length ≤ 0 every int key raises IndexError, so the modulo never divides by zero |
| MatrixList.IndexAgreesWithIteration | quagga/matrix/MatrixList.py:12-21 | When length ≤ storage, `list[k]` is the k-th item iteration yields, and `list[-j]` the j-th from its end |
| MatrixList.SliceIgnoresLength | quagga/matrix/MatrixList.py:10-11 | Slicing gives the same result whatever the logical length; without a step it is the contiguous run between the normalised bounds |
| Py.SliceSeq | quagga/matrix/MatrixList.py:9-11 | A Python list slice raises ValueError exactly when the step is 0, and otherwise holds only elements of the list |
| Py.SliceWithoutStep | quagga/matrix/MatrixList.py:20-21 | A step-less Python slice is the contiguous subsequence between the clamped bounds, or empty when they cross |
| GpuMatrix.StrToDType | quagga/matrix/GpuMatrix.py:126-131 | Only 'float' and 'int' are understood, and they map back to their names; any other name raises TypeError |
| GpuMatrix.ArrayToDType | quagga/matrix/GpuMatrix.py:134-139 | Only float32 and int32 arrays are understood, and the result maps back to the array's type; any other raises TypeError |
| GpuMatrix.DTypeRoundTrip | quagga/matrix/GpuMatrix.py:125-139 | Both dtype resolutions invert the name and host-type mappings |
| GpuMatrix.Make | quagga/matrix/GpuMatrix.py:19-32 | Without strides the handle gets the packed layout (4, nrows*4); given strides are kept; no descriptor yet |
| GpuMatrix.Construct | quagga/matrix/GpuMatrix.py:19-32 | The constructor succeeds iff the dtype name is understood (TypeError otherwise). It keeps data, shape, owner and device, is packed when no strides are given, and starts with no descriptor |
| GpuMatrix.Nelems | quagga/matrix/GpuMatrix.py:34-36 | `nelems` is one past the column-major position of the last element, and is never negative for non-negative extents |
| GpuMatrix.Nbytes | quagga/matrix/GpuMatrix.py:60-62 | `nbytes` is never negative for non-negative extents, and the packed extent ends exactly after the last element |
| GpuMatrix.ColumnAddr | quagga/matrix/GpuMatrix.py:113-115 | The pointer to an in-range column starts a run of nrows elements lying wholly inside the matrix's extent |
| GpuMatrix.RowAddr | quagga/matrix/GpuMatrix.py:117-119 | The pointer to an in-range row lies in the first column |
| GpuMatrix.ElementAddr | quagga/matrix/GpuMatrix.py:121-123 | The element pointer is i elements down column j's pointer and j columns past row i's pointer |
| GpuMatrix.AddressDecomposition | quagga/matrix/GpuMatrix.py:113-123 | The element pointer is the column pointer plus i elements, the row pointer plus j columns, and the (nrows*j+i)-th element in memory order |
| GpuMatrix.DenseStridesAgree | quagga/matrix/GpuMatrix.py:28-32 | With the default strides, addressing by strides and by the element helper agree |
| GpuMatrix.ElementIndexInjective | quagga/matrix/GpuMatrix.py:121-123 | For rows in [0, nrows), offset nrows*j+i identifies (i, j) (both directions) |
| GpuMatrix.DecodeEncode | quagga/matrix/GpuMatrix.py:121-123 | (t mod nrows, t div nrows) recovers (i, j) from its offset |
| GpuMatrix.EncodeDecode | quagga/matrix/GpuMatrix.py:121-123 | Every offset is the offset of its decoded element, whose row is in range |
| GpuMatrix.ElementIndexBijection | quagga/matrix/GpuMatrix.py:34-36 | In-range elements have offsets in [0, nelems), and every such offset decodes to an in-range column |
| GpuMatrix.ElementAddrInjective | quagga/matrix/GpuMatrix.py:121-123 | Distinct in-range elements have distinct addresses |
| GpuMatrix.ElementInExtent | quagga/matrix/GpuMatrix.py:60-62 | Every in-range element lies in [data, data + nbytes) |
| GpuMatrix.GetItem | quagga/matrix/GpuMatrix.py:82-100 | Every view is non-owning and keeps dtype and device. An int key always succeeds. A two-item key succeeds iff it is a step-less row range with an int, or `:` with a step-less column range; otherwise ValueError. An empty tuple raises IndexError; None, other objects and a slice on a multi-column matrix raise TypeError |
| GpuMatrix.ColumnRange | quagga/matrix/GpuMatrix.py:94-100 | The second key form succeeds iff the key is `:` with a step-less slice, giving a packed view; otherwise ValueError |
| GpuMatrix.RowView | quagga/matrix/GpuMatrix.py:83-85 | `m[k]` is a non-owning 1×ncols view at row offset k with the parent's strides. Those strides address the parent's (k, j) when the row stride is one element, and always for a packed parent |
| GpuMatrix.ColumnRangeView | quagga/matrix/GpuMatrix.py:94-99 | `m[:, s:t]` is a non-owning packed nrows×(t−s) view at column s whose (i, j) is the parent's (i, s+j). A missing or 0 stop means ncols; a missing start means 0 |
| GpuMatrix.RowRangeView | quagga/matrix/GpuMatrix.py:88-93 | `m[s:t, j]` is a non-owning packed (t−s)×1 view at (s, j) whose (i, 0) is the parent's (s+i, j). A missing or 0 stop means nrows |
| GpuMatrix.SliceOfColumnVector | quagga/matrix/GpuMatrix.py:86-87 | On a one-column matrix `m[s:t]` is `m[s:t, 0]` |
| GpuMatrix.ColumnsFromAreColumns | quagga/matrix/GpuMatrix.py:234-235 | Collecting `m[:, j]` from column j onward never fails and yields, in order, a view aliasing each remaining column |
| GpuMatrix.ToList | quagga/matrix/GpuMatrix.py:234-235 | `to_list` never fails and yields ncols views (none for a non-positive width); the j-th is a non-owning nrows×1 alias of column j |
| GpuMatrix.Ravel | quagga/matrix/GpuMatrix.py:250-251 | `ravel` is a non-owning packed nelems×1 view of the same storage |
| GpuMatrix.Reshape | quagga/matrix/GpuMatrix.py:253-254 | `reshape` is a non-owning packed view of the same storage with any shape, and no size check |
| GpuMatrix.RavelKeepsOrder | quagga/matrix/GpuMatrix.py:250-251 | Parent element (i, j) is element nrows*j+i of the raveled column |
| GpuMatrix.ReshapeKeepsOrder | quagga/matrix/GpuMatrix.py:253-254 | The t-th cell in memory order is the same before and after a reshape |
| GpuMatrix.Delete | quagga/matrix/GpuMatrix.py:76-80 | Destruction frees storage iff the handle owns it, and destroys the descriptor iff an owner has one |
| GpuMatrix.ViewsNeverFree | quagga/matrix/GpuMatrix.py:76-80 | No view from `__getitem__`, `ravel`, `reshape` or `to_list` frees storage when destroyed |
| GpuMatrix.SetNrows | quagga/matrix/GpuMatrix.py:42-47 | The nrows setter changes only nrows and drops the cached descriptor; strides stay as they were |
| GpuMatrix.SetNcols | quagga/matrix/GpuMatrix.py:53-58 | The ncols setter changes only ncols and drops the cached descriptor |
| GpuMatrix.GetDescriptor | quagga/matrix/GpuMatrix.py:64-74 | The getter creates a descriptor iff none is cached and changes nothing else. On a handle whose cache is current, it yields the descriptor of the current shape |
| GpuMatrix.ResizeRefreshesDescriptor | quagga/matrix/GpuMatrix.py:42-74 | After resizing a handle with a cached descriptor, the getter rebuilds one for the new shape |
| GpuMatrix.DescriptorIsColumnMajor | quagga/matrix/GpuMatrix.py:69-73 | The descriptor strides (1, nrows) place (n, c) at its column-major offset |
| GpuMatrix.FromNpa | quagga/matrix/GpuMatrix.py:141-160 | A non-2-d array raises ValueError. The dtype named (or else the array's own) must be understood, or TypeError. The result is a packed owner of the array's shape, nbytes = nelems*4 |
| GpuMatrix.Empty | quagga/matrix/GpuMatrix.py:162-170 | The dtype named, or else the library default, must be understood (TypeError). The result is a packed owner of the given shape |
| GpuMatrix.EmptyLike | quagga/matrix/GpuMatrix.py:172-178 | A packed owner with the other's shape and dtype, whatever the other's layout |
| GpuMatrix.FreshAllocationCovers | quagga/matrix/GpuMatrix.py:162-178 | A fresh allocation is freed on destruction and its strides keep every in-range element inside the bytes requested |
| GpuMatrix.Resize | quagga/matrix/GpuMatrix.py:199 | Assigning nrows and ncols sets both and leaves no descriptor |
| GpuMatrix.ToDevice | quagga/matrix/GpuMatrix.py:180-209 | An array transfer succeeds iff the element type matches and the array is 2-d (ValueError otherwise). The handle takes the array's shape and nbytes of it are copied to `data`. A pointer always raises ValueError |
| GpuMatrix.PointerTransfer | quagga/matrix/GpuMatrix.py:206-209 | With both extents given the handle takes them and nbytes of the new shape are copied; a missing extent raises TypeError |
| GpuMatrix.ToDeviceIntended | quagga/matrix/GpuMatrix.py:201-209 | A pointer transfer succeeds iff its element type is the handle's and both extents are given |
| GpuMatrix.ToDevicePointerAlwaysRejected | quagga/matrix/GpuMatrix.py:203-206 | A pointer of exactly the handle's element type, with both extents, is rejected as written and accepted as intended |
| GpuMatrix.TransferKeepsStorage | quagga/matrix/GpuMatrix.py:180-209 | A transfer keeps storage, ownership and strides; the descriptor is then rebuilt for the new shape |
| GpuMatrix.SetItem | quagga/matrix/GpuMatrix.py:102-108 | ValueError iff a subscript is not an int. IndexError iff an index exceeds nrows or ncols. Then TypeError iff `c_dtype(value)` rejects the value: a float into an int matrix, or a non-number. Otherwise one 4-byte write at (i, j) |
| GpuMatrix.SetItemWritesPastEnd | quagga/matrix/GpuMatrix.py:105-108 | Key (nrows, ncols−1) passes the bound test and writes at data + nbytes |
| GpuMatrix.SetItemChecked | quagga/matrix/GpuMatrix.py:102-108 | The same, including the value's TypeError, with IndexError iff an index is at least nrows or ncols |
| GpuMatrix.SetItemCheckedStaysInside | quagga/matrix/GpuMatrix.py:105-108 | With the `>=` test every accepted non-negative key writes inside [data, data + nbytes) |
| GpuMatrix.SetItemValueKinds | quagga/matrix/GpuMatrix.py:108 | At an in-range position, an int is written into either matrix kind and a float only into a float matrix; any other value raises TypeError. There the two bound tests agree for every value |
| GpuMatrix.CopyTo | quagga/matrix/GpuMatrix.py:237-248 | The flat path is one copy of nbytes from `data` to `out.data`. The pitched path is nelems copies, each of `out.strides[0]` bytes. Each chunk's addresses are stated for the row-view case by `GpuMatrix.CopyIntoRowWritesParentRow` |
| GpuMatrix.DenseTargetCopiesFlat | quagga/matrix/GpuMatrix.py:242-248 | A destination with default strides never takes the pitched path |
| GpuMatrix.RowViewCopyIsStrided | quagga/matrix/GpuMatrix.py:242 | A row view of a packed parent takes the pitched path iff the parent's nrows is not 1 |
| GpuMatrix.CopyIntoRowWritesParentRow | quagga/matrix/GpuMatrix.py:242-246 | Copying ncols elements into row k of a packed parent writes exactly the parent's cells (k, j), the j-th from source element j |
| MatrixChecks.CheckStack | quagga/matrix/GpuMatrix.py:296-305 | Ok iff every part has the whole's cross extent and the parts' extents sum to the whole's, else ValueError; the extent table lists each part's extent |
| MatrixChecks.Stack | quagga/matrix/GpuMatrix.py:296-310 | ValueError iff the parts do not stack up to the whole. Then TypeError iff some part's element type is not the whole's. Otherwise the extent table and the table of the parts' data pointers |
| MatrixChecks.AssignHstack | quagga/matrix/GpuMatrix.py:296-310 | ValueError iff some part's nrows differs from `self.nrows` or the parts' ncols do not sum to `self.ncols`. Ok iff that check passes and every part has self's element type, else TypeError. The tables list each part's ncols and data pointer |
| MatrixChecks.AssignVstack | quagga/matrix/GpuMatrix.py:364-378 | The same with rows and columns swapped |
| MatrixChecks.SliceTable | quagga/matrix/GpuMatrix.py:321 | The flattened (start, end) table has 2n entries with zero padding; more pairs than parts raise IndexError |
| MatrixChecks.CheckSlices | quagga/matrix/GpuMatrix.py:315-321 | ValueError iff some slice end exceeds the extent. Then IndexError iff there are more pairs than parts. Otherwise the flattened table |
| MatrixChecks.Split | quagga/matrix/GpuMatrix.py:312-336 | With a non-empty slice list: ValueError iff some end exceeds the extent; then IndexError iff there are more pairs than parts; then TypeError iff some part's element type differs; Ok exactly when none of these holds. Without slices it is `Stack`'s outcome. The pointer table holds the parts' data pointers |
| MatrixChecks.Hsplit | quagga/matrix/GpuMatrix.py:312-336 | With slices: ValueError iff some slice end exceeds ncols. Ok iff every end is within ncols, there are no more pairs than parts, and every part has self's element type. Without slices: ValueError iff the parts do not have nrows rows with ncols summing to ncols; Ok iff they do and share self's element type |
| MatrixChecks.Vsplit | quagga/matrix/GpuMatrix.py:380-404 | The same with rows and columns swapped |
| MatrixChecks.TileCheck | quagga/matrix/GpuMatrix.py:256-279 | Axis 0 needs a 1×ncols source and axis 1 an nrows×1 source; any other shape or axis raises ValueError |
| MatrixChecks.SCopy | quagga/matrix/GpuMatrix.py:266 | `s_copy` sets y[k·incy] to x[k·incx] for k < n and leaves every other address unchanged |
| MatrixChecks.CopyLandsOnTarget | quagga/matrix/GpuMatrix.py:264-277 | The k-th write of copy c lands on cell (c, k) for axis 0 and (k, c) for axis 1 |
| MatrixChecks.TileTargetsDistinct | quagga/matrix/GpuMatrix.py:264-277 | The targets lie inside the whole and are pairwise distinct |
| MatrixChecks.Tile | quagga/matrix/GpuMatrix.py:256-279 | Ok iff the check passes (ValueError otherwise). No cell outside the whole changes. When `a` does not overlap, cell (i, j) holds a's j-th element for axis 0 and its i-th for axis 1 |
| MatrixChecks.AddScaled | quagga/matrix/GpuMatrix.py:487-497 | The row broadcast is taken iff self.nrows≠1 and a.nrows=1, with ValueError iff the widths then differ. Every other pair is axpy over self's nelems |
| MatrixChecks.AddScaledAdmits | quagga/matrix/GpuMatrix.py:492-497 | Every equal-shape or one-row-of-same-width operand is accepted; any operand of more than one row goes to axpy unchecked |
| MatrixChecks.Add | quagga/matrix/GpuMatrix.py:499-500 | `add` is accepted exactly when `sub` is and launches the same kernel with alpha 1: a row broadcast over self's shape exactly when self has more than one row, `a` has one row and the widths agree, otherwise an axpy over nelems; anything else is ValueError |
| MatrixChecks.Sub | quagga/matrix/GpuMatrix.py:520-521 | `sub` enqueues `add`'s call with alpha −1 |
| MatrixChecks.AddHprod | quagga/matrix/GpuMatrix.py:548-557 | Three factors iff `c` is given, over self's nelems, with the alpha passed |
| MatrixChecks.AssignHprod | quagga/matrix/GpuMatrix.py:559-568 | Three factors iff `c` is given, over a's nelems |
| MatrixChecks.HprodFactorsArePresentOperands | quagga/matrix/GpuMatrix.py:548-568 | Both kernels multiply as many factors as there are operands present among a, b and c |
| MatrixChecks.Hprod | quagga/matrix/GpuMatrix.py:536-546 | The column broadcast is taken iff self.ncols≠1 and a.ncols=1, with ValueError iff the heights then differ. Otherwise it is the two-factor `add_hprod` with alpha 0 |
| MatrixChecks.HprodMirrorsAddScaled | quagga/matrix/GpuMatrix.py:536-546 | `hprod` rejects and broadcasts exactly where `add_scaled` does on the transposed shapes |
| MatrixChecks.AssignScaledAddition | quagga/matrix/GpuMatrix.py:460-467 | ValueError iff the heights differ and the widths are equal; otherwise the addition over self's nelems |
| MatrixChecks.AssignScaledSubtraction | quagga/matrix/GpuMatrix.py:472-479 | The same check; otherwise the subtraction over self's nelems |
| MatrixChecks.PairCheckAcceptsMismatchedShapes | quagga/matrix/GpuMatrix.py:465-466 | Operands of the same shape pass the check. So does every pair whose widths differ, whatever the heights, such as a 2×3 and a 3×2 |
| MatrixChecks.AssignAdd | quagga/matrix/GpuMatrix.py:469-470 | `assign_add` is the scaled addition with alpha 1; its only error is ValueError |
| MatrixChecks.AssignSub | quagga/matrix/GpuMatrix.py:484-485 | As written, `assign_sub` enqueues exactly what `assign_add` does |
| MatrixChecks.AssignSubIntended | quagga/matrix/GpuMatrix.py:484-485 | As intended, the scaled subtraction with alpha 1; its only error is ValueError |
| MatrixChecks.AssignSubAdds | quagga/matrix/GpuMatrix.py:484-485 | For every accepted pair, the as-written call adds where the intended one subtracts |
| MatrixChecks.SumHprodOperands | quagga/matrix/GpuMatrix.py:570-582 | With `k` given: 11 operands, AttributeError iff one of e..j is missing. Otherwise 5 operands if `e` is given, else 4 |
| MatrixChecks.SumHprodReadsFirstOperands | quagga/matrix/GpuMatrix.py:577-582 | The n-operand kernel reads the first n operands, and all of them are present. The next optional operand, which would select a larger kernel, is absent. The call fails iff `k` is given and some optional operand is not |
| MatrixChecks.AddDot | quagga/matrix/GpuMatrix.py:594-603 | gemv iff self.ncols=1 and op_b='N', over a's stored shape. Otherwise gemm of self's shape with k the height of op(b); leading dimensions are the stored heights |
| MatrixChecks.AssignDot | quagga/matrix/GpuMatrix.py:591-592 | `assign_dot` is `add_dot` with beta 0 and alpha 1: a one-column product is gemv(op(a), a.nrows, a.ncols, lda a.nrows, 1, 0); otherwise gemm with the given transposes, m, n = self's shape, k = op(b)'s rows, and leading dimensions a.nrows, b.nrows, self.nrows |
| MatrixChecks.GemmMatchesProductShape | quagga/matrix/GpuMatrix.py:599-603 | For conforming operands, the gemm's m, n and k are the product's dimensions |
| MatrixChecks.TanhSigm | quagga/matrix/GpuMatrix.py:427-439 | ValueError iff the axis is not 0 or 1; otherwise the kernel gets the axis and the shape |
| MatrixChecks.TanhSigmAxesAreTileAxes | quagga/matrix/GpuMatrix.py:433-434 | `tanh_sigm` accepts exactly the axes along which some source can be tiled into the whole |
| MatrixChecks.TanhSigmUsesCallerShape | quagga/matrix/GpuMatrix.py:433-439 | The kernel call depends on the caller only through its shape: same-shaped handles get the same call, covering exactly the caller's nelems, and axes 0 and 1 give calls that differ only in the axis |
| TempMemory.GetTempMemory | quagga/matrix/GpuMatrix.py:680-692 | A context's region changes only when N exceeds its capacity (or it has none). It then holds N+10 entries at the new pointer, and the old non-NULL pointer is freed. The capacity never shrinks and covers N; other contexts are unchanged |
| TempMemory.ReplayNeverShrinks | quagga/matrix/GpuMatrix.py:680-692 | Over any sequence of calls no context loses its region or capacity |
| TempMemory.ReplayCoversEveryRequest | quagga/matrix/GpuMatrix.py:680-692 | After any sequence of calls each context's capacity covers each of its requests |
| TempMemory.ReplayCapacityFromRequest | quagga/matrix/GpuMatrix.py:680-692 | Each region is its initial one, or sized for one of that context's requests plus 10 |
| TempMemory.FromEmptyPool | quagga/matrix/GpuMatrix.py:680-692 | From an empty pool, a context's capacity is one of its requests plus 10 and at least all of them |
| GpuMatrix.PointerTable | quagga/matrix/GpuMatrix.py:343-345 | TypeError iff one of the first n matrices has another element type than the table. Otherwise IndexError iff there are more matrices than slots. On success the table holds the data pointers followed by NULLs |
| TempMemory.BatchHorizontalStack | quagga/matrix/GpuMatrix.py:338-362 | No outputs raises IndexError. Too many x or y matrices raise IndexError or TypeError, and a matrix of another element type than the first output's raises TypeError; the pool is untouched in each case. Otherwise the pool grows for 3n, and empty x or y lists then raise IndexError. The tables sit at offsets 0, n and 2n and hold the data pointers |
| TempMemory.BatchTablesFit | quagga/matrix/GpuMatrix.py:346-356 | The three n-entry uploads lie one after another inside the region |
| TempMemory.UploadTable | quagga/matrix/GpuMatrix.py:502-509 | TypeError, with the pool untouched, iff some matrix has another element type than the caller's. Otherwise the caller asks for n entries and uploads the n data pointers at the region's start, where they fit |
| TempMemory.SequentiallyTile | quagga/matrix/GpuMatrix.py:615-628 | ValueError iff some target's shape differs from a's. Then TypeError iff some target's element type differs from a's. The pool is untouched on either error. Otherwise a's nelems and the uploaded targets |

## Left out

- Device kernels and their numeric results are not modelled: gemm, axpy, Hadamard products, the nonlinearities, softmax, dropout and sums. The model records only which kernel is chosen and with which extents.
- Data movement by `cudart` is not modelled: `cuda_malloc`, `cuda_free` and the copies. A transfer is its destination address and byte count; allocator pointers and the current device are parameters.
- The device-peer scan at import (quagga/matrix/GpuMatrix.py:8-15) is not modelled: it is device probing with warnings only.
- `context.activate()` and stream ordering are not modelled. The context object is only a key of the scratch pool.
- Operations that are a single kernel call with no host-side check are not modelled: `fill`, `softmax`, `slice_columns_and_transpose`, `slice_rows`, `sliced_columns_add_scaled`, `sliced_columns_add`, `assign_softmax_ce_derivative`, `assign_hprod_sum`, `dropout`, `mask_zeros` and `mask_column_numbers_row_wise`.
- Operations whose only host-side logic is choosing between two kernel variants are not modelled, because the choice checks nothing:
  - `scale` chooses on whether `out` is given (quagga/matrix/GpuMatrix.py:408-411);
  - `tanh`, `sigmoid` and `relu` choose on whether `derivative_matrix` is given (quagga/matrix/GpuMatrix.py:415-418, 422-425, 443-446);
  - `slice_columns` chooses on `reverse` (quagga/matrix/GpuMatrix.py:283-286).
- `sync_fill` and `to_host` are not modelled: each is one host/device copy of nbytes through a numpy or ctypes host buffer.
- `get_random_generator` is not modelled: it only creates a cuRAND generator.
- `same_shape` (quagga/matrix/GpuMatrix.py:110-111) is not modelled: it is a host comparison of nrows and ncols that calls no kernel, and none of the modelled operations uses it.
- `MatrixList.to_host` is not modelled: it is one device-to-host transfer per matrix.
- quagga/context/GpuContext.py, quagga/matrix/Matrix.py, the blocks and the optimizer are not part of this model.
- The 32-bit `c_int` arrays for extents and slice bounds are modelled as unbounded ints: the model does not truncate values outside the 32-bit range.
- Pointer arithmetic is on unbounded ints with no 64-bit wrap-around.
- The descriptor's data type argument (always float) is not modelled. Neither is the cuDNN handle it lives in.
- The hsplit/vsplit slice list is a list of pairs. A tuple of another length would change the flattened table's layout, and this is not modelled.
- GpuMatrix.SetItem: a value is classified only as an int, a float or anything else. Numpy scalars, whose conversion depends on their own `__int__`/`__float__`, and the 32-bit truncation `c_int` applies to large ints are not modelled. The value itself is not stored; the write is its address and byte count.
- MatrixList.Len: a `length` set to something other than an int (the source does not check) is not modelled.
- GpuMatrix.PointerTransfer: on TypeError the source has already stored the `None` extents in the handle. The model returns only the error.
- MatrixChecks.SCopy: models only a positive destination increment, which is the only kind `tile` uses. It reads every source value from memory as the call finds it; for overlapping source and destination cuBLAS leaves the result undefined.
- MatrixChecks.Tile: the cell contents are stated only when `a` does not overlap the whole. Otherwise only the frame (nothing outside the whole changes) is stated.
- MatrixChecks.CheckSlices: the source's running maximum starts at minus infinity. With the non-empty list the caller guarantees, starting from the first end gives the same maximum.
- TempMemory.UploadTable: the kernel each single-table caller then runs is not modelled: `add_sum`, `assign_sum`, `assign_sequential_mean_pooling`, `slice_rows_batch` and `sliced_rows_batch_scaled_add`.

## Findings

| source | as written | input that shows it | evidently intended | confidence | as-written member | corrected member |
|---|---|---|---|---|---|---|
| quagga/matrix/GpuMatrix.py:203 | compares the ctypes element class `a._type_` with the dtype name string, which never compare equal | any ctypes array or pointer of `c_float` passed to `to_device` of a 'float' matrix, with both extents | compare with the handle's ctypes element type | high; not executed | GpuMatrix.ToDevicePointerAlwaysRejected | GpuMatrix.ToDeviceIntended |
| quagga/matrix/GpuMatrix.py:105 | bound test `key[0] > self.nrows or key[1] > self.ncols` | `m[2, 2] = v` on a 2×3 matrix: accepted, writes at offset 2·2+2 = 6 = nelems, one element past the end | `>=`, so that only in-range elements are written | high; not executed | GpuMatrix.SetItemWritesPastEnd | GpuMatrix.SetItemCheckedStaysInside |
| quagga/matrix/GpuMatrix.py:484-485 | `assign_sub` calls `assign_scaled_addition(context, 1.0, a, b)` | any accepted a, b: `self` becomes a + b | `self = a - b` via `assign_scaled_subtraction` | high; not executed | MatrixChecks.AssignSubAdds | MatrixChecks.AssignSubIntended |

=== FILE: gpu_matrix.dfy ===
/** Host-side bookkeeping of a `GpuMatrix` handle: a base address into
    column-major device memory, a shape, an element type, byte strides, an
    ownership flag and a lazily built tensor descriptor. Everything here is
    decided on the host before any device work is enqueued; device
    transfers appear only as the address and byte count they would move. */
module GpuMatrix {
  import opened Py

  /** The two element types a handle can carry: 'float' (float32) and
      'int' (int32). */
  datatype DType = Float32 | Int32

  /** A host array's element type. */
  datatype NpType = NpFloat32 | NpInt32 | NpOther(name: string)

  /** A ctypes element type. */
  datatype CType = CFloat | CInt | COther(name: string)

  /** `sizeof(c_float) == sizeof(c_int)`: every element is four bytes. */
  const ElemSize: int := 4

  function DTypeName(d: DType): string {
    match d
    case Float32 => "float"
    case Int32 => "int"
  }

  function NpTypeOf(d: DType): NpType {
    match d
    case Float32 => NpFloat32
    case Int32 => NpInt32
  }

  function CTypeOf(d: DType): CType {
    match d
    case Float32 => CFloat
    case Int32 => CInt
  }

  /** `str_to_dtypes`: 'float' and 'int' are understood, any other name
      raises TypeError. Inverse of DTypeName. */
  function StrToDType(s: string): (r: Result<DType>)
    ensures r.Ok? <==> s == "float" || s == "int"
    ensures r.Ok? ==> DTypeName(r.value) == s
    ensures r.Err? ==> r.error == TypeError
  {
    if s == "float" then Ok(Float32)
    else if s == "int" then Ok(Int32)
    else Err(TypeError)
  }

  /** `array_to_dtypes`: float32 and int32 host arrays are understood, any
      other element type raises TypeError. Inverse of NpTypeOf. */
  function ArrayToDType(t: NpType): (r: Result<DType>)
    ensures r.Ok? <==> !t.NpOther?
    ensures r.Ok? ==> NpTypeOf(r.value) == t
    ensures r.Err? ==> r.error == TypeError
  {
    match t
    case NpFloat32 => Ok(Float32)
    case NpInt32 => Ok(Int32)
    case NpOther(_) => Err(TypeError)
  }

  /** The dtype names and host types map back to the dtype they came from. */
  lemma DTypeRoundTrip(d: DType)
    ensures StrToDType(DTypeName(d)) == Ok(d)
    ensures ArrayToDType(NpTypeOf(d)) == Ok(d)
  {
  }

  /** A 4-d tensor descriptor: dimensions n, c, h, w and their strides. */
  datatype TensorDescriptor = TensorDescriptor(n: int, c: int, h: int, w: int,
                                               nStride: int, cStride: int, hStride: int, wStride: int)

  /** The descriptor the getter builds for an nrows x ncols matrix: the rows
      as n, the columns as c, with the column-major strides (1, nrows). */
  function ShapeDescriptor(nrows: int, ncols: int): TensorDescriptor {
    TensorDescriptor(nrows, ncols, 1, 1, 1, nrows, 1, 1)
  }

  /** A matrix handle. `data` is the byte address of element (0, 0). */
  datatype Matrix = Matrix(data: int, nrows: int, ncols: int, dtype: DType, deviceId: int,
                           isOwner: bool, strides: (int, int), descriptor: Option<TensorDescriptor>)

  /** `nelems`: one past the column-major position of the last element. */
  function Nelems(m: Matrix): (r: int)
    ensures m.nrows >= 0 && m.ncols >= 0 ==> r >= 0
    ensures m.nrows > 0 && m.ncols > 0 ==> r == ElementIndex(m.nrows, m.nrows - 1, m.ncols - 1) + 1
  {
    m.nrows * m.ncols
  }

  /** `nbytes`: the packed extent ends right after the last element. */
  function Nbytes(m: Matrix): (r: int)
    ensures m.nrows >= 0 && m.ncols >= 0 ==> r >= 0
    ensures m.nrows > 0 && m.ncols > 0 ==> m.data + r == ElementAddr(m, m.nrows - 1, m.ncols - 1) + ElemSize
  {
    Nelems(m) * ElemSize
  }

  /** The strides a handle gets when none are passed: one element down a
      column, one column (nrows elements) across a row. */
  function DefaultStrides(nrows: int): (int, int) {
    (ElemSize, nrows * ElemSize)
  }

  /** The strides describe the packed column-major layout of the shape. */
  predicate Dense(m: Matrix) {
    m.strides == DefaultStrides(m.nrows)
  }

  /** The cached descriptor, if any, describes the current shape. */
  predicate DescriptorCurrent(m: Matrix) {
    m.descriptor.Some? ==> m.descriptor.value == ShapeDescriptor(m.nrows, m.ncols)
  }

  /** The constructor once the dtype is known. */
  function Make(data: int, nrows: int, ncols: int, dtype: DType, deviceId: int,
                isOwner: bool, strides: Option<(int, int)>): (m: Matrix)
    ensures m.data == data && m.nrows == nrows && m.ncols == ncols
    ensures m.dtype == dtype && m.deviceId == deviceId && m.isOwner == isOwner
    ensures strides.None? ==> Dense(m)
    ensures strides.Some? ==> m.strides == strides.value
    ensures m.descriptor.None?
  {
    Matrix(data, nrows, ncols, dtype, deviceId, isOwner,
           if strides.Some? then strides.value else DefaultStrides(nrows), None)
  }

  /** `GpuMatrix(data, nrows, ncols, dtype, device_id, is_owner, strides)`:
      the dtype name must be understood; without strides the handle gets
      the packed layout of its shape; no descriptor exists yet. */
  function Construct(data: int, nrows: int, ncols: int, dtype: string, deviceId: int,
                     isOwner: bool, strides: Option<(int, int)>): (r: Result<Matrix>)
    ensures r.Ok? <==> dtype == "float" || dtype == "int"
    ensures r.Err? ==> r.error == TypeError
    ensures r.Ok? ==> DTypeName(r.value.dtype) == dtype
    ensures r.Ok? ==> r.value.data == data && r.value.nrows == nrows && r.value.ncols == ncols
    ensures r.Ok? ==> r.value.isOwner == isOwner && r.value.deviceId == deviceId
    ensures r.Ok? && strides.None? ==> Dense(r.value)
    ensures r.Ok? ==> r.value.descriptor.None? && DescriptorCurrent(r.value)
  {
    var d :- StrToDType(dtype);
    Ok(Make(data, nrows, ncols, d, deviceId, isOwner, strides))
  }

  // ---------------------------------------------------------------------
  // Addressing
  // ---------------------------------------------------------------------

  /** Column-major position of element (i, j). */
  function ElementIndex(nrows: int, i: int, j: int): int {
    nrows * j + i
  }

  /** The element a column-major position denotes: (t mod nrows, t div nrows). */
  function ElementOf(nrows: int, t: int): (int, int)
    requires nrows > 0
  {
    (t % nrows, t / nrows)
  }

  /** `_get_pointer_to_element(i, j)`: i elements down column j, and j
      columns of nrows elements past the first cell of row i. */
  function ElementAddr(m: Matrix, i: int, j: int): (r: int)
    ensures r == ColumnAddr(m, j) + i * ElemSize
    ensures r == RowAddr(m, i) + m.nrows * j * ElemSize
  {
    m.data + ElementIndex(m.nrows, i, j) * ElemSize
  }

  /** `_get_pointer_to_column(k)`: the k-th run of nrows elements; for an
      in-range column the whole run lies inside the packed extent. */
  function ColumnAddr(m: Matrix, k: int): (r: int)
    ensures 0 <= k < m.ncols && 0 <= m.nrows ==>
              m.data <= r && r + m.nrows * ElemSize <= m.data + Nelems(m) * ElemSize
  {
    assert 0 <= k < m.ncols && 0 <= m.nrows ==> 0 <= m.nrows * k && m.nrows * (k + 1) <= m.nrows * m.ncols by {
      if 0 <= k < m.ncols && 0 <= m.nrows {
        MulNonNegative(m.nrows, k);
        MulNonNegative(m.nrows, m.ncols - (k + 1));
      }
    }
    m.data + m.nrows * k * ElemSize
  }

  /** `_get_pointer_to_row(k)`: k elements into the storage; for an
      in-range row that cell lies in the first column. */
  function RowAddr(m: Matrix, k: int): (r: int)
    ensures 0 <= k < m.nrows ==> m.data <= r < m.data + m.nrows * ElemSize
  {
    m.data + k * ElemSize
  }

  /** The t-th element of the handle's storage in memory order. */
  function LinearAddr(m: Matrix, t: int): int {
    m.data + t * ElemSize
  }

  /** The address of (i, j) as the handle's strides describe it. */
  function StridedAddr(m: Matrix, i: int, j: int): int {
    m.data + i * m.strides.0 + j * m.strides.1
  }

  /** Element (i, j) sits i elements into column j, and j columns of
      nrows elements past row i's first cell. */
  lemma AddressDecomposition(m: Matrix, i: int, j: int)
    ensures ElementAddr(m, i, j) == ColumnAddr(m, j) + i * ElemSize
    ensures ElementAddr(m, i, j) == RowAddr(m, i) + m.nrows * j * ElemSize
    ensures ElementAddr(m, i, j) == LinearAddr(m, ElementIndex(m.nrows, i, j))
  {
  }

  /** For the packed layout the strides and the offset helpers agree. */
  lemma DenseStridesAgree(m: Matrix, i: int, j: int)
    requires Dense(m)
    ensures StridedAddr(m, i, j) == ElementAddr(m, i, j)
  {
  }

  /** Column-major encoding is injective on rows in [0, nrows). */
  lemma {:induction false} ElementIndexInjective(nrows: int, i: int, j: int, i': int, j': int)
    requires 0 <= i < nrows && 0 <= i' < nrows
    ensures ElementIndex(nrows, i, j) == ElementIndex(nrows, i', j') <==> i == i' && j == j'
  {
    if ElementIndex(nrows, i, j) == ElementIndex(nrows, i', j') {
      assert nrows * (j - j') == i' - i;
      assert nrows * (j' - j) == i - i';
      if j > j' {
        MulAtLeast(nrows, j - j');
      } else if j < j' {
        MulAtLeast(nrows, j' - j);
      }
    }
  }

  /** n * d >= n for a positive n and d >= 1. */
  lemma MulAtLeast(n: int, d: int)
    requires n > 0 && d >= 1
    ensures n * d >= n
  {
    assert n * d == n + n * (d - 1);
  }

  /** Decoding a column-major position gives back the element it encodes. */
  lemma {:induction false} DecodeEncode(nrows: int, i: int, j: int)
    requires 0 <= i < nrows
    ensures ElementOf(nrows, ElementIndex(nrows, i, j)) == (i, j)
  {
    var t := ElementIndex(nrows, i, j);
    var (q, r) := (t / nrows, t % nrows);
    assert t == nrows * q + r;
    ElementIndexInjective(nrows, r, q, i, j);
  }

  /** Encoding a decoded position gives back the position. */
  lemma EncodeDecode(nrows: int, t: int)
    requires nrows > 0
    ensures 0 <= ElementOf(nrows, t).0 < nrows
    ensures ElementIndex(nrows, ElementOf(nrows, t).0, ElementOf(nrows, t).1) == t
  {
  }

  /** The in-range elements of an nrows x ncols matrix are exactly the
      positions [0, nrows * ncols) in column-major order. */
  lemma {:induction false} ElementIndexBijection(nrows: int, ncols: int, i: int, j: int, t: int)
    requires nrows > 0
    ensures 0 <= i < nrows && 0 <= j < ncols ==> 0 <= ElementIndex(nrows, i, j) < nrows * ncols
    ensures 0 <= t < nrows * ncols ==> 0 <= ElementOf(nrows, t).1 < ncols
  {
    if 0 <= i < nrows && 0 <= j < ncols {
      MulAtLeast(nrows, ncols - j);
      assert nrows * ncols == nrows * j + nrows * (ncols - j);
      assert 0 <= nrows * j;
    }
    if 0 <= t < nrows * ncols {
      var q := t / nrows;
      assert t == nrows * q + t % nrows;
      assert nrows * (-q) == -(nrows * q);
      assert nrows * q == nrows * ncols + nrows * (q - ncols);
      if q < 0 {
        MulAtLeast(nrows, -q);
      } else if q >= ncols {
        MulNonNegative(nrows, q - ncols);
      }
    }
  }

  /** n * d >= 0 for non-negative n and d. */
  lemma MulNonNegative(n: int, d: int)
    requires n >= 0 && d >= 0
    ensures n * d >= 0
  {
  }

  /** Distinct in-range elements of a handle have distinct addresses. */
  lemma {:induction false} ElementAddrInjective(m: Matrix, i: int, j: int, i': int, j': int)
    requires 0 <= i < m.nrows && 0 <= i' < m.nrows
    ensures ElementAddr(m, i, j) == ElementAddr(m, i', j') <==> i == i' && j == j'
  {
    ElementIndexInjective(m.nrows, i, j, i', j');
  }

  /** Every in-range element lies in the handle's packed extent
      [data, data + nbytes). */
  lemma {:induction false} ElementInExtent(m: Matrix, i: int, j: int)
    requires 0 <= i < m.nrows && 0 <= j < m.ncols
    ensures 0 <= ElementIndex(m.nrows, i, j) < Nelems(m)
    ensures m.data <= ElementAddr(m, i, j) < m.data + Nbytes(m)
  {
    ElementIndexBijection(m.nrows, m.ncols, i, j, 0);
  }

  // ---------------------------------------------------------------------
  // Views
  // ---------------------------------------------------------------------

  /** The keys `__getitem__` supports once it holds a two-item key: a
      step-less row range with a column index, or `:` with a step-less
      column range. A zero step counts as no step. */
  predicate SupportedPair(k0: Value, k1: Value) {
    || (k0.Slice? && !Truthy(k0.step) && k1.Int?)
    || (k0 == FullSlice && k1.Slice? && !Truthy(k1.step))
  }

  /** What every view shares with its parent: not an owner, same element
      type and device, no descriptor of its own. */
  predicate ViewOf(v: Matrix, m: Matrix) {
    !v.isOwner && v.dtype == m.dtype && v.deviceId == m.deviceId && v.descriptor.None?
  }

  /** `m[key]`: a non-allocating view.
      - `m[k]`: row k, 1 x ncols, keeping the parent's strides; no bounds check.
      - `m[s:t]` on a one-column matrix is read as `m[s:t, 0]`.
      - `m[s:t, j]`: rows s..t of column j, packed; a missing or zero stop
        means nrows, a missing start means 0.
      - `m[:, s:t]`: columns s..t, packed; a missing or zero stop means ncols.
      - Any other two-item key raises ValueError; a key that cannot be
        subscripted raises TypeError, a too-short tuple IndexError. */
  function GetItem(m: Matrix, key: Value): (r: Result<Matrix>)
    ensures r.Ok? ==> ViewOf(r.value, m)
    ensures key.Int? ==> r.Ok?
    ensures key.Tuple? && |key.items| >= 2 ==> (r.Ok? <==> SupportedPair(key.items[0], key.items[1]))
    ensures key.Tuple? && |key.items| >= 2 && r.Err? ==> r.error == ValueError
    ensures key.Tuple? && |key.items| == 0 ==> r == Err(IndexError)
    ensures key.NoneValue? || key.Other? || (key.Slice? && m.ncols != 1) ==> r == Err(TypeError)
  {
    if key.Int? then
      Ok(Make(ElementAddr(m, key.i, 0), 1, m.ncols, m.dtype, m.deviceId, false, Some(m.strides)))
    else
      var key := if key.Slice? && m.ncols == 1 then Tuple([key, Int(0)]) else key;
      var k0 :- Subscript(key, 0);
      if k0.Slice? && !Truthy(k0.step) then
        var k1 :- Subscript(key, 1);
        if k1.Int? then
          var stop := OrElse(k0.stop, m.nrows);
          var start := OrElse(k0.start, 0);
          Ok(Make(ElementAddr(m, start, k1.i), stop - start, 1, m.dtype, m.deviceId, false, None))
        else
          ColumnRange(m, k0, key)
      else
        ColumnRange(m, k0, key)
  }

  /** The second half of `__getitem__`: `m[:, s:t]`, or ValueError. */
  function ColumnRange(m: Matrix, k0: Value, key: Value): (r: Result<Matrix>)
    ensures r.Ok? ==> ViewOf(r.value, m) && Dense(r.value)
    ensures key.Tuple? && |key.items| >= 2 && k0 == key.items[0] ==>
              (r.Ok? <==> k0 == FullSlice && key.items[1].Slice? && !Truthy(key.items[1].step))
    ensures key.Tuple? && |key.items| >= 2 && r.Err? ==> r.error == ValueError
  {
    if k0 == FullSlice then
      var k1 :- Subscript(key, 1);
      if k1.Slice? && !Truthy(k1.step) then
        var stop := OrElse(k1.stop, m.ncols);
        var start := OrElse(k1.start, 0);
        Ok(Make(ColumnAddr(m, start), m.nrows, stop - start, m.dtype, m.deviceId, false, None))
      else
        Err(ValueError)
    else
      Err(ValueError)
  }

  /** `m[k]` is the parent's row k: a non-owning 1 x ncols view at row
      offset k whose inherited strides address the parent's cells (k, j). */
  lemma RowView(m: Matrix, k: int)
    ensures GetItem(m, Int(k)).Ok?
    ensures var v := GetItem(m, Int(k)).value;
            && !v.isOwner && v.nrows == 1 && v.ncols == m.ncols
            && v.data == RowAddr(m, k) && v.strides == m.strides
            && (m.strides.0 == ElemSize ==> forall j :: StridedAddr(v, 0, j) == StridedAddr(m, k, j))
            && (Dense(m) ==> forall j :: StridedAddr(v, 0, j) == ElementAddr(m, k, j))
  {
  }

  /** `m[:, s:t]` is columns s..t of the parent: a non-owning packed
      nrows x (t - s) view at column s, and its (i, j) is the parent's
      (i, s + j). A missing or zero stop means ncols, a missing start 0. */
  lemma ColumnRangeView(m: Matrix, start: Option<int>, stop: Option<int>, step: Option<int>)
    requires !Truthy(step)
    ensures var r := GetItem(m, Tuple([FullSlice, Slice(start, stop, step)]));
            var s := OrElse(start, 0);
            var t := OrElse(stop, m.ncols);
            && r.Ok? && !r.value.isOwner && Dense(r.value)
            && r.value.nrows == m.nrows && r.value.ncols == t - s
            && r.value.data == ColumnAddr(m, s)
            && forall i, j :: ElementAddr(r.value, i, j) == ElementAddr(m, i, s + j)
  {
  }

  /** `m[s:t, j]` is rows s..t of column j: a non-owning packed
      (t - s) x 1 view at element (s, j), and its (i, 0) is the parent's
      (s + i, j). A missing or zero stop means nrows. */
  lemma RowRangeView(m: Matrix, start: Option<int>, stop: Option<int>, step: Option<int>, j: int)
    requires !Truthy(step)
    ensures var r := GetItem(m, Tuple([Slice(start, stop, step), Int(j)]));
            var s := OrElse(start, 0);
            var t := OrElse(stop, m.nrows);
            && r.Ok? && !r.value.isOwner && Dense(r.value)
            && r.value.nrows == t - s && r.value.ncols == 1
            && r.value.data == ElementAddr(m, s, j)
            && forall i :: ElementAddr(r.value, i, 0) == ElementAddr(m, s + i, j)
  {
  }

  /** On a one-column matrix a bare row range means that range of column 0. */
  lemma SliceOfColumnVector(m: Matrix, start: Option<int>, stop: Option<int>, step: Option<int>)
    requires m.ncols == 1
    ensures GetItem(m, Slice(start, stop, step)) == GetItem(m, Tuple([Slice(start, stop, step), Int(0)]))
  {
  }

  /** The j-th column view `m[:, j]` that `to_list` collects. */
  ghost predicate IsColumnView(c: Matrix, m: Matrix, j: int) {
    && ViewOf(c, m) && Dense(c)
    && c.nrows == m.nrows && c.ncols == 1 && c.data == ColumnAddr(m, j)
    && forall i :: ElementAddr(c, i, 0) == ElementAddr(m, i, j)
  }

  function ColumnsFrom(m: Matrix, j: int): Result<seq<Matrix>>
    decreases m.ncols - j
  {
    if j >= m.ncols then Ok([])
    else
      var c :- GetItem(m, Tuple([FullSlice, Int(j)]));
      var rest :- ColumnsFrom(m, j + 1);
      Ok([c] + rest)
  }

  /** `to_list`: `[m[:, j] for j in xrange(ncols)]`. It never fails and
      yields one non-owning column view per column, the j-th aliasing
      column j of the parent. */
  function ToList(m: Matrix): (r: Result<seq<Matrix>>)
    ensures r.Ok?
    ensures |r.value| == if m.ncols <= 0 then 0 else m.ncols
    ensures forall j :: 0 <= j < |r.value| ==> IsColumnView(r.value[j], m, j)
  {
    ColumnsFromAreColumns(m, 0);
    ColumnsFrom(m, 0)
  }

  lemma {:induction false} ColumnsFromAreColumns(m: Matrix, j: int)
    requires j >= 0
    ensures ColumnsFrom(m, j).Ok?
    ensures |ColumnsFrom(m, j).value| == if j >= m.ncols then 0 else m.ncols - j
    ensures forall t :: 0 <= t < |ColumnsFrom(m, j).value| ==> IsColumnView(ColumnsFrom(m, j).value[t], m, j + t)
    decreases m.ncols - j
  {
    if j < m.ncols {
      RowRangeView(m, None, None, None, j);
      ColumnsFromAreColumns(m, j + 1);
      var rest := ColumnsFrom(m, j + 1).value;
      var c := GetItem(m, Tuple([FullSlice, Int(j)])).value;
      assert ColumnsFrom(m, j).value == [c] + rest;
      assert IsColumnView(c, m, j);
    }
  }

  /** `ravel`: the same storage as one nelems x 1 column, not an owner. */
  function Ravel(m: Matrix): (v: Matrix)
    ensures ViewOf(v, m) && Dense(v)
    ensures v.data == m.data && v.ncols == 1 && Nelems(v) == Nelems(m)
  {
    Make(m.data, Nelems(m), 1, m.dtype, m.deviceId, false, None)
  }

  /** `reshape`: the same storage under any shape, not an owner; the new
      shape is not compared with the old size. */
  function Reshape(m: Matrix, nrows: int, ncols: int): (v: Matrix)
    ensures ViewOf(v, m) && Dense(v)
    ensures v.data == m.data && v.nrows == nrows && v.ncols == ncols
  {
    Make(m.data, nrows, ncols, m.dtype, m.deviceId, false, None)
  }

  /** Ravel keeps the column-major order: element (i, j) of the parent is
      element ElementIndex(i, j) of the raveled column. */
  lemma RavelKeepsOrder(m: Matrix, i: int, j: int)
    ensures ElementAddr(Ravel(m), ElementIndex(m.nrows, i, j), 0) == ElementAddr(m, i, j)
  {
  }

  /** Reshape keeps the column-major order: the t-th element in memory
      order is the same cell before and after. */
  lemma {:induction false} ReshapeKeepsOrder(m: Matrix, nrows: int, ncols: int, t: int)
    requires m.nrows > 0 && nrows > 0
    ensures var v := Reshape(m, nrows, ncols);
            var (i, j) := ElementOf(m.nrows, t);
            var (i', j') := ElementOf(nrows, t);
            ElementAddr(v, i', j') == ElementAddr(m, i, j) == LinearAddr(m, t)
  {
    EncodeDecode(m.nrows, t);
    EncodeDecode(nrows, t);
  }

  // ---------------------------------------------------------------------
  // Ownership and the descriptor cache
  // ---------------------------------------------------------------------

  /** What destroying a handle releases. */
  datatype Release = Release(freesData: bool, destroysDescriptor: bool)

  /** `__del__`: only an owner frees the storage, and only an owner
      destroys its descriptor (a view's descriptor is left alone). */
  function Delete(m: Matrix): (r: Release)
    ensures r.freesData <==> m.isOwner
    ensures r.destroysDescriptor <==> m.isOwner && m.descriptor.Some?
  {
    Release(m.isOwner, m.isOwner && m.descriptor.Some?)
  }

  /** No view frees the storage it shares. */
  lemma ViewsNeverFree(m: Matrix, key: Value, nrows: int, ncols: int)
    ensures GetItem(m, key).Ok? ==> !Delete(GetItem(m, key).value).freesData
    ensures !Delete(Ravel(m)).freesData
    ensures !Delete(Reshape(m, nrows, ncols)).freesData
    ensures ToList(m).Ok? && forall c :: c in ToList(m).value ==> !Delete(c).freesData
  {
  }

  /** The `nrows` setter: the shape changes and any cached descriptor is
      dropped; the strides are not recomputed. */
  function SetNrows(m: Matrix, value: int): (r: Matrix)
    ensures r.nrows == value && r.ncols == m.ncols && r.data == m.data && r.strides == m.strides
    ensures r.isOwner == m.isOwner && r.dtype == m.dtype && r.deviceId == m.deviceId
    ensures r.descriptor.None? && DescriptorCurrent(r)
  {
    m.(nrows := value, descriptor := None)
  }

  /** The `ncols` setter, likewise. */
  function SetNcols(m: Matrix, value: int): (r: Matrix)
    ensures r.ncols == value && r.nrows == m.nrows && r.data == m.data && r.strides == m.strides
    ensures r.isOwner == m.isOwner && r.dtype == m.dtype && r.deviceId == m.deviceId
    ensures r.descriptor.None? && DescriptorCurrent(r)
  {
    m.(ncols := value, descriptor := None)
  }

  datatype DescriptorLookup = DescriptorLookup(m: Matrix, descriptor: TensorDescriptor, created: bool)

  /** The `cudnn_tensor_descriptor` getter: reuses the cached descriptor,
      or builds one for the current shape and caches it. Nothing else
      about the handle changes. */
  function GetDescriptor(m: Matrix): (r: DescriptorLookup)
    ensures r.m == m.(descriptor := Some(r.descriptor))
    ensures r.created <==> m.descriptor.None?
    ensures DescriptorCurrent(m) ==> r.descriptor == ShapeDescriptor(m.nrows, m.ncols) && DescriptorCurrent(r.m)
  {
    if m.descriptor.Some? then DescriptorLookup(m, m.descriptor.value, false)
    else
      var d := ShapeDescriptor(m.nrows, m.ncols);
      DescriptorLookup(m.(descriptor := Some(d)), d, true)
  }

  /** After a resize the getter describes the new shape, even when a
      descriptor for the old shape had been cached. */
  lemma ResizeRefreshesDescriptor(m: Matrix, nrows: int, ncols: int)
    ensures var cached := GetDescriptor(m).m;
            var resized := SetNcols(SetNrows(cached, nrows), ncols);
            GetDescriptor(resized).created
            && GetDescriptor(resized).descriptor == ShapeDescriptor(nrows, ncols)
  {
  }

  /** The descriptor's strides address element (n, c) at its column-major
      position. */
  lemma DescriptorIsColumnMajor(nrows: int, ncols: int, n: int, c: int)
    ensures var d := ShapeDescriptor(nrows, ncols);
            n * d.nStride + c * d.cStride == ElementIndex(nrows, n, c)
  {
  }

  // ---------------------------------------------------------------------
  // Allocation and transfer bookkeeping
  // ---------------------------------------------------------------------

  /** A host array: its element type and shape (its length is ndim). */
  datatype HostArray = HostArray(dtype: NpType, shape: seq<int>)

  /** A fresh owning handle and the byte count requested for it. */
  datatype Allocation = Allocation(m: Matrix, nbytes: int)

  /** What every allocating factory produces. */
  predicate FreshOwner(a: Allocation) {
    && a.m.isOwner && Dense(a.m) && a.m.descriptor.None?
    && a.nbytes == Nbytes(a.m)
  }

  /** A Python string is true when non-empty. */
  predicate TruthyStr(s: Option<string>) {
    s.Some? && s.value != ""
  }

  /** `from_npa(a, dtype)`: a 2-d array only (ValueError otherwise); the
      dtype is the one named (TypeError if not understood) or else the
      array's own (TypeError if neither float32 nor int32). `data` and
      `deviceId` stand for what the allocator and the current device
      return. */
  function FromNpa(a: HostArray, dtype: Option<string>, data: int, deviceId: int): (r: Result<Allocation>)
    ensures |a.shape| != 2 ==> r == Err(ValueError)
    ensures |a.shape| == 2 && TruthyStr(dtype) ==> (r.Ok? <==> dtype.value == "float" || dtype.value == "int")
    ensures |a.shape| == 2 && !TruthyStr(dtype) ==> (r.Ok? <==> !a.dtype.NpOther?)
    ensures r.Err? && |a.shape| == 2 ==> r.error == TypeError
    ensures r.Ok? ==> FreshOwner(r.value) && r.value.m.data == data && r.value.m.deviceId == deviceId
    ensures r.Ok? ==> r.value.m.nrows == a.shape[0] && r.value.m.ncols == a.shape[1]
    ensures r.Ok? && TruthyStr(dtype) ==> DTypeName(r.value.m.dtype) == dtype.value
    ensures r.Ok? && !TruthyStr(dtype) ==> NpTypeOf(r.value.m.dtype) == a.dtype
  {
    if |a.shape| != 2 then Err(ValueError)
    else
      var d :- if TruthyStr(dtype) then StrToDType(dtype.value) else ArrayToDType(a.dtype);
      var m := Make(data, a.shape[0], a.shape[1], d, deviceId, true, None);
      Ok(Allocation(m, a.shape[0] * a.shape[1] * ElemSize))
  }

  /** `empty(nrows, ncols, dtype)`: the dtype named, or the library-wide
      default when none is; no check on the extents. */
  function Empty(nrows: int, ncols: int, dtype: Option<string>, defaultDType: string,
                 data: int, deviceId: int): (r: Result<Allocation>)
    ensures var name := if TruthyStr(dtype) then dtype.value else defaultDType;
            (r.Ok? <==> name == "float" || name == "int")
            && (r.Ok? ==> DTypeName(r.value.m.dtype) == name)
    ensures r.Err? ==> r.error == TypeError
    ensures r.Ok? ==> FreshOwner(r.value) && r.value.m.nrows == nrows && r.value.m.ncols == ncols
    ensures r.Ok? ==> r.value.m.data == data && r.value.m.deviceId == deviceId
  {
    var d :- StrToDType(if TruthyStr(dtype) then dtype.value else defaultDType);
    Ok(Allocation(Make(data, nrows, ncols, d, deviceId, true, None), nrows * ncols * ElemSize))
  }

  /** `empty_like(other)`: same shape and dtype, packed layout and owner
      whatever `other` is. */
  function EmptyLike(other: Matrix, data: int, deviceId: int): (r: Allocation)
    ensures FreshOwner(r)
    ensures r.m.nrows == other.nrows && r.m.ncols == other.ncols && r.m.dtype == other.dtype
    ensures r.m.data == data && r.m.deviceId == deviceId
  {
    Allocation(Make(data, other.nrows, other.ncols, other.dtype, deviceId, true, None), Nelems(other) * ElemSize)
  }

  /** A fresh allocation covers every in-range element, and frees its
      storage when destroyed. */
  lemma FreshAllocationCovers(a: Allocation, i: int, j: int)
    requires FreshOwner(a)
    ensures Delete(a.m).freesData
    ensures 0 <= i < a.m.nrows && 0 <= j < a.m.ncols ==>
              a.m.data <= StridedAddr(a.m, i, j) < a.m.data + a.nbytes
  {
    if 0 <= i < a.m.nrows && 0 <= j < a.m.ncols {
      ElementInExtent(a.m, i, j);
    }
  }

  /** The source of a `to_device` transfer: a host array, or a ctypes
      pointer of some element type with the extents passed beside it. */
  datatype Source = Array(a: HostArray) | Pointer(ctype: CType, nrows: Option<int>, ncols: Option<int>)

  /** A transfer: the handle after its logical resize, and the
      destination address and byte count of the copy. */
  datatype Transfer = Transfer(m: Matrix, dst: int, nbytes: int)

  /** `a._type_ != self.dtype` compares a ctypes class with a dtype name;
      a class never equals a string. */
  predicate CTypeEqualsName(c: CType, name: string) {
    false
  }

  /** The handle after `self.nrows, self.ncols = nrows, ncols`. */
  function Resize(m: Matrix, nrows: int, ncols: int): (r: Matrix)
    ensures r.nrows == nrows && r.ncols == ncols && r.descriptor.None?
    ensures r == m.(nrows := nrows, ncols := ncols, descriptor := None)
  {
    SetNcols(SetNrows(m, nrows), ncols)
  }

  /** `to_device(context, a, nrows, ncols)` as written. An array must have
      the handle's element type and two dimensions (ValueError otherwise);
      the handle takes the array's shape without any capacity check and
      nbytes of the new shape are copied to `data`. The pointer branch
      compares a ctypes class with the dtype name and so always raises. */
  function ToDevice(m: Matrix, src: Source): (r: Result<Transfer>)
    ensures src.Pointer? ==> r == Err(ValueError)
    ensures src.Array? ==> (r.Ok? <==> src.a.dtype == NpTypeOf(m.dtype) && |src.a.shape| == 2)
    ensures r.Err? ==> r.error == ValueError
    ensures r.Ok? ==> r.value.m == Resize(m, src.a.shape[0], src.a.shape[1])
    ensures r.Ok? ==> r.value.dst == m.data && r.value.nbytes == Nbytes(r.value.m)
  {
    match src
    case Array(a) =>
      if a.dtype != NpTypeOf(m.dtype) then Err(ValueError)
      else if |a.shape| != 2 then Err(ValueError)
      else
        var r := Resize(m, a.shape[0], a.shape[1]);
        Ok(Transfer(r, m.data, Nbytes(r)))
    case Pointer(c, nrows, ncols) =>
      if !CTypeEqualsName(c, DTypeName(m.dtype)) then Err(ValueError)
      else PointerTransfer(m, nrows, ncols)
  }

  /** The rest of the pointer branch: the handle takes the extents passed;
      missing extents make the byte count `None * None`: TypeError. */
  function PointerTransfer(m: Matrix, nrows: Option<int>, ncols: Option<int>): (r: Result<Transfer>)
    ensures r.Ok? <==> nrows.Some? && ncols.Some?
    ensures r.Err? ==> r.error == TypeError
    ensures r.Ok? ==> r.value.m == Resize(m, nrows.value, ncols.value)
    ensures r.Ok? ==> r.value.dst == m.data && r.value.nbytes == Nbytes(r.value.m)
  {
    if nrows.None? || ncols.None? then Err(TypeError)
    else
      var r := Resize(m, nrows.value, ncols.value);
      Ok(Transfer(r, m.data, Nbytes(r)))
  }

  /** `to_device` with the pointer branch comparing element types as
      evidently intended (`a._type_` against the handle's ctypes type). */
  function ToDeviceIntended(m: Matrix, src: Source): (r: Result<Transfer>)
    ensures src.Array? ==> r == ToDevice(m, src)
    ensures src.Pointer? ==> (r.Ok? <==> src.ctype == CTypeOf(m.dtype) && src.nrows.Some? && src.ncols.Some?)
    ensures src.Pointer? && src.ctype != CTypeOf(m.dtype) ==> r == Err(ValueError)
    ensures r.Ok? && src.Pointer? ==> r.value.m == Resize(m, src.nrows.value, src.ncols.value)
    ensures r.Ok? ==> r.value.dst == m.data && r.value.nbytes == Nbytes(r.value.m)
  {
    match src
    case Array(_) => ToDevice(m, src)
    case Pointer(c, nrows, ncols) =>
      if c != CTypeOf(m.dtype) then Err(ValueError)
      else PointerTransfer(m, nrows, ncols)
  }

  /** The pointer branch rejects even a pointer of exactly the handle's
      element type with both extents given, which the intended comparison
      accepts. */
  lemma ToDevicePointerAlwaysRejected(m: Matrix)
    ensures ToDevice(m, Pointer(CTypeOf(m.dtype), Some(m.nrows), Some(m.ncols))) == Err(ValueError)
    ensures ToDeviceIntended(m, Pointer(CTypeOf(m.dtype), Some(m.nrows), Some(m.ncols))).Ok?
  {
  }

  /** A transfer keeps the storage, ownership and strides; only the
      logical shape follows the source, and the descriptor is refreshed
      on next use. */
  lemma TransferKeepsStorage(m: Matrix, src: Source)
    ensures var r := ToDeviceIntended(m, src);
            r.Ok? ==> && r.value.m.data == m.data && r.value.m.isOwner == m.isOwner
                      && r.value.m.strides == m.strides && DescriptorCurrent(r.value.m)
                      && GetDescriptor(r.value.m).descriptor == ShapeDescriptor(r.value.m.nrows, r.value.m.ncols)
  {
  }

  /** One element written by `__setitem__`: its address and byte count. */
  datatype Write = Write(addr: int, nbytes: int)

  /** The kind of the value assigned by `m[i, j] = value`, as far as the
      conversion `c_dtype(value)` is concerned: a Python int (bool and long
      included), a Python float, or anything else. */
  datatype Scalar = IntScalar | FloatScalar | OtherScalar

  /** `c_float(value)` takes ints and floats; `c_int(value)` rejects a
      float; neither takes anything else. A rejected value raises
      TypeError. */
  predicate Converts(d: DType, v: Scalar) {
    match v
    case IntScalar => true
    case FloatScalar => d == Float32
    case OtherScalar => false
  }

  /** `m[i, j] = value`: both subscripts must be ints (ValueError); an
      index above nrows or ncols raises IndexError — one equal to them is
      let through; a value the element type cannot hold raises TypeError;
      otherwise one element is written at (i, j). */
  function SetItem(m: Matrix, key: Value, v: Scalar): (r: Result<Write>)
    ensures r.Ok? ==> key.Tuple? && |key.items| >= 2 && key.items[0].Int? && key.items[1].Int?
    ensures r.Ok? ==> Converts(m.dtype, v)
    ensures r.Ok? ==> r.value == Write(ElementAddr(m, key.items[0].i, key.items[1].i), ElemSize)
    ensures key.Tuple? && |key.items| >= 2 ==>
              var (k0, k1) := (key.items[0], key.items[1]);
              && (r == Err(ValueError) <==> !(k0.Int? && k1.Int?))
              && (r == Err(IndexError) <==> k0.Int? && k1.Int? && (k0.i > m.nrows || k1.i > m.ncols))
              && (r == Err(TypeError) <==> k0.Int? && k1.Int? && k0.i <= m.nrows && k1.i <= m.ncols && !Converts(m.dtype, v))
  {
    var k0 :- Subscript(key, 0);
    if !k0.Int? then Err(ValueError)
    else
      var k1 :- Subscript(key, 1);
      if !k1.Int? then Err(ValueError)
      else if k0.i > m.nrows || k1.i > m.ncols then Err(IndexError)
      else if !Converts(m.dtype, v) then Err(TypeError)
      else Ok(Write(ElementAddr(m, k0.i, k1.i), ElemSize))
  }

  /** The bound test lets (nrows, ncols - 1) through, and that write lands
      one element past the packed extent. */
  lemma SetItemWritesPastEnd(m: Matrix)
    requires m.ncols >= 1
    ensures var r := SetItem(m, Tuple([Int(m.nrows), Int(m.ncols - 1)]), IntScalar);
            r.Ok? && r.value.addr == m.data + Nbytes(m)
  {
  }

  /** `__setitem__` with the evidently intended bound test `>=`. */
  function SetItemChecked(m: Matrix, key: Value, v: Scalar): (r: Result<Write>)
    ensures r.Ok? ==> key.Tuple? && |key.items| >= 2 && key.items[0].Int? && key.items[1].Int?
    ensures r.Ok? ==> Converts(m.dtype, v)
    ensures r.Ok? ==> r.value == Write(ElementAddr(m, key.items[0].i, key.items[1].i), ElemSize)
    ensures key.Tuple? && |key.items| >= 2 ==>
              var (k0, k1) := (key.items[0], key.items[1]);
              && (r == Err(ValueError) <==> !(k0.Int? && k1.Int?))
              && (r == Err(IndexError) <==> k0.Int? && k1.Int? && (k0.i >= m.nrows || k1.i >= m.ncols))
              && (r == Err(TypeError) <==> k0.Int? && k1.Int? && k0.i < m.nrows && k1.i < m.ncols && !Converts(m.dtype, v))
  {
    var k0 :- Subscript(key, 0);
    if !k0.Int? then Err(ValueError)
    else
      var k1 :- Subscript(key, 1);
      if !k1.Int? then Err(ValueError)
      else if k0.i >= m.nrows || k1.i >= m.ncols then Err(IndexError)
      else if !Converts(m.dtype, v) then Err(TypeError)
      else Ok(Write(ElementAddr(m, k0.i, k1.i), ElemSize))
  }

  /** With the intended test, every accepted non-negative index pair writes
      inside the packed extent. */
  lemma SetItemCheckedStaysInside(m: Matrix, i: int, j: int, v: Scalar)
    requires i >= 0 && j >= 0
    ensures var r := SetItemChecked(m, Tuple([Int(i), Int(j)]), v);
            r.Ok? ==> m.data <= r.value.addr && r.value.addr + r.value.nbytes <= m.data + Nbytes(m)
  {
    if SetItemChecked(m, Tuple([Int(i), Int(j)]), v).Ok? {
      ElementInExtent(m, i, j);
    }
  }

  /** The value's kind decides the outcome independently of the position:
      at any accepted position, an int is written into either matrix kind,
      a float only into a float matrix, and there the two bound tests
      agree. */
  lemma SetItemValueKinds(m: Matrix, i: int, j: int)
    requires 0 <= i < m.nrows && 0 <= j < m.ncols
    ensures SetItem(m, Tuple([Int(i), Int(j)]), IntScalar).Ok?
    ensures SetItem(m, Tuple([Int(i), Int(j)]), FloatScalar).Ok? <==> m.dtype == Float32
    ensures SetItem(m, Tuple([Int(i), Int(j)]), OtherScalar) == Err(TypeError)
    ensures forall v :: SetItemChecked(m, Tuple([Int(i), Int(j)]), v) == SetItem(m, Tuple([Int(i), Int(j)]), v)
  {
  }

  // ---------------------------------------------------------------------
  // copy_to
  // ---------------------------------------------------------------------

  /** One contiguous copy of `nbytes` bytes. */
  datatype Chunk = Chunk(dst: int, src: int, nbytes: int)

  /** `copy_to` uses the pitched 2-d copy when the destination is a single
      row whose strides differ. */
  predicate UsesStridedCopy(out: Matrix) {
    out.nrows == 1 && out.strides.0 != out.strides.1
  }

  /** `copy_to(context, out)`: the copies it enqueues. The pitched copy
      moves nelems rows of `strides[0]` bytes, reading with pitch
      `strides[0]` and writing with pitch `strides[1]`; the flat copy moves
      the source's nbytes in one piece. */
  function CopyTo(self: Matrix, out: Matrix): (plan: seq<Chunk>)
    ensures !UsesStridedCopy(out) ==> |plan| == 1 && plan[0].dst == out.data && plan[0].src == self.data
    ensures !UsesStridedCopy(out) ==> plan[0].nbytes == Nbytes(self)
    ensures UsesStridedCopy(out) ==> |plan| == if Nelems(self) < 0 then 0 else Nelems(self)
    ensures UsesStridedCopy(out) ==> forall r :: 0 <= r < |plan| ==> plan[r].nbytes == out.strides.0
  {
    if UsesStridedCopy(out) then
      var (spitch, dpitch) := (out.strides.0, out.strides.1);
      var height := if Nelems(self) < 0 then 0 else Nelems(self);
      seq(height, r => Chunk(out.data + r * dpitch, self.data + r * spitch, spitch))
    else
      [Chunk(out.data, self.data, Nbytes(self))]
  }

  /** A destination with the packed layout always gets the flat copy. */
  lemma DenseTargetCopiesFlat(self: Matrix, out: Matrix)
    requires Dense(out)
    ensures !UsesStridedCopy(out)
    ensures CopyTo(self, out) == [Chunk(out.data, self.data, Nbytes(self))]
  {
  }

  /** A row view of a packed parent gets the pitched copy exactly when the
      parent does not have one row. */
  lemma RowViewCopyIsStrided(p: Matrix, k: int)
    requires Dense(p)
    ensures UsesStridedCopy(GetItem(p, Int(k)).value) <==> p.nrows != 1
  {
  }

  /** Copying a packed 1 x ncols source into row k of a packed parent
      writes exactly the parent's cells (k, 0), ..., (k, ncols - 1), the
      j-th from the source's j-th element. */
  lemma CopyIntoRowWritesParentRow(self: Matrix, p: Matrix, k: int)
    requires Dense(p) && p.nrows != 1
    requires Nelems(self) == p.ncols >= 0
    ensures var plan := CopyTo(self, GetItem(p, Int(k)).value);
            && |plan| == p.ncols
            && forall j :: 0 <= j < |plan| ==>
                 plan[j] == Chunk(ElementAddr(p, k, j), LinearAddr(self, j), ElemSize)
  {
    var v := GetItem(p, Int(k)).value;
    RowView(p, k);
    var plan := CopyTo(self, v);
    forall j | 0 <= j < |plan|
      ensures plan[j] == Chunk(ElementAddr(p, k, j), LinearAddr(self, j), ElemSize)
    {
      assert StridedAddr(v, 0, j) == ElementAddr(p, k, j);
    }
  }

  // ---------------------------------------------------------------------
  // Tables of data pointers
  // ---------------------------------------------------------------------

  /** Every matrix has element type d. */
  predicate AllOf(ms: seq<Matrix>, d: DType) {
    forall k :: 0 <= k < |ms| ==> ms[k].dtype == d
  }

  /** A concatenation has element type d when both parts have. */
  lemma AllOfConcat(a: seq<Matrix>, b: seq<Matrix>, d: DType)
    ensures AllOf(a + b, d) <==> AllOf(a, d) && AllOf(b, d)
  {
    if AllOf(a, d) && AllOf(b, d) {
      forall k | 0 <= k < |a + b|
        ensures (a + b)[k].dtype == d
      {
        if k >= |a| {
          assert (a + b)[k] == b[k - |a|];
        }
      }
    }
    if AllOf(a + b, d) {
      forall k | 0 <= k < |a|
        ensures a[k].dtype == d
      {
        assert (a + b)[k] == a[k];
      }
      forall k | 0 <= k < |b|
        ensures b[k].dtype == d
      {
        assert (a + b)[|a| + k] == b[k];
      }
    }
  }

  /** `(POINTER(c_dtype) * n)(*(m.data for m in ms))`, the host array of
      device pointers that stacking, splitting and the batched kernels
      take. ctypes stores the initialisers in order and stops at the first
      that fails: a data pointer of another element type raises TypeError,
      one past the n slots raises IndexError. Unused slots stay NULL. */
  function PointerTable(ms: seq<Matrix>, n: nat, d: DType): (r: Result<seq<int>>)
    ensures r == Err(TypeError) <==> exists k :: 0 <= k < |ms| && k < n && ms[k].dtype != d
    ensures r == Err(IndexError) <==> |ms| > n && AllOf(ms[..n], d)
    ensures r.Ok? <==> |ms| <= n && AllOf(ms, d)
    ensures r.Ok? ==> |r.value| == n
    ensures r.Ok? ==> forall k :: 0 <= k < |ms| ==> r.value[k] == ms[k].data
    ensures r.Ok? ==> forall k :: |ms| <= k < n ==> r.value[k] == 0
  {
    if exists k :: 0 <= k < |ms| && k < n && ms[k].dtype != d then Err(TypeError)
    else if |ms| > n then Err(IndexError)
    else Ok(seq(n, k requires 0 <= k < n => if k < |ms| then ms[k].data else 0))
  }
}

=== FILE: matrix_checks.dfy ===
/** The shape checks `GpuMatrix` operations run before enqueueing anything,
    and the kernel each operation then chooses. The kernels' arithmetic is
    not modelled: a result names the kernel and the extents it is given.
    `tile`, whose loops are plain copies, is modelled on device memory. */
module MatrixChecks {
  import opened Py
  import opened GpuMatrix

  // ---------------------------------------------------------------------
  // Stacking and splitting
  // ---------------------------------------------------------------------

  /** Which extent the parts are laid along: `Columns` for hstack/hsplit,
      `Rows` for vstack/vsplit. */
  datatype Axis = Rows | Columns

  /** The extent the parts add up along. */
  function Extent(m: Matrix, axis: Axis): int {
    if axis == Columns then m.ncols else m.nrows
  }

  /** The extent every part must share with the whole. */
  function Cross(m: Matrix, axis: Axis): int {
    if axis == Columns then m.nrows else m.ncols
  }

  function SumExtent(parts: seq<Matrix>, axis: Axis): int {
    if |parts| == 0 then 0 else SumExtent(parts[..|parts| - 1], axis) + Extent(parts[|parts| - 1], axis)
  }

  /** The parts tile the whole along the axis. */
  predicate Stackable(whole: Matrix, parts: seq<Matrix>, axis: Axis) {
    && (forall k :: 0 <= k < |parts| ==> Cross(parts[k], axis) == Cross(whole, axis))
    && SumExtent(parts, axis) == Extent(whole, axis)
  }

  /** The check `assign_hstack`, `assign_vstack` and the slice-less
      `hsplit`/`vsplit` run: every part must have the whole's cross extent
      and the parts' extents must sum to the whole's, or ValueError. On
      success, the per-part extent table handed to the kernel. */
  method CheckStack(whole: Matrix, parts: seq<Matrix>, axis: Axis) returns (r: Result<seq<int>>)
    ensures r.Ok? <==> Stackable(whole, parts, axis)
    ensures r.Err? ==> r.error == ValueError
    ensures r.Ok? ==> |r.value| == |parts| && forall k :: 0 <= k < |parts| ==> r.value[k] == Extent(parts[k], axis)
  {
    var total := 0;
    var i := 0;
    while i < |parts|
      invariant 0 <= i <= |parts|
      invariant total == SumExtent(parts[..i], axis)
      invariant forall k :: 0 <= k < i ==> Cross(parts[k], axis) == Cross(whole, axis)
    {
      assert parts[..i + 1][..i] == parts[..i];
      total := total + Extent(parts[i], axis);
      if Cross(parts[i], axis) != Cross(whole, axis) {
        return Err(ValueError);
      }
      i := i + 1;
    }
    assert parts[..i] == parts;
    if total != Extent(whole, axis) {
      return Err(ValueError);
    }
    r := Ok(seq(|parts|, k requires 0 <= k < |parts| => Extent(parts[k], axis)));
  }

  /** What a stack or split hands its kernel: the parts' extents, or
      explicit (start, end) slices flattened into a table of 2n ints, and
      the table of the parts' data pointers. */
  datatype StackCall = BySizes(extents: seq<int>, pointers: seq<int>) | BySlices(bounds: seq<int>, pointers: seq<int>)

  /** `assign_hstack`/`assign_vstack` and the slice-less `hsplit`/`vsplit`:
      the stacking check (ValueError), then the extent table and the
      pointer table in the whole's element type, which rejects a part of
      another element type with TypeError. */
  method Stack(whole: Matrix, parts: seq<Matrix>, axis: Axis) returns (r: Result<StackCall>)
    ensures r == Err(ValueError) <==> !Stackable(whole, parts, axis)
    ensures r == Err(TypeError) <==> Stackable(whole, parts, axis) && !AllOf(parts, whole.dtype)
    ensures r.Ok? <==> Stackable(whole, parts, axis) && AllOf(parts, whole.dtype)
    ensures r.Ok? ==> r.value.BySizes?
    ensures r.Ok? ==> |r.value.extents| == |parts| && forall k :: 0 <= k < |parts| ==> r.value.extents[k] == Extent(parts[k], axis)
    ensures r.Ok? ==> |r.value.pointers| == |parts| && forall k :: 0 <= k < |parts| ==> r.value.pointers[k] == parts[k].data
  {
    var t := CheckStack(whole, parts, axis);
    if t.Err? {
      return Err(t.error);
    }
    var p := PointerTable(parts, |parts|, whole.dtype);
    if p.Err? {
      return Err(p.error);
    }
    r := Ok(BySizes(t.value, p.value));
  }

  /** `assign_hstack(context, matrices)`. */
  method AssignHstack(whole: Matrix, parts: seq<Matrix>) returns (r: Result<StackCall>)
    ensures r == Err(ValueError) <==> !((forall k :: 0 <= k < |parts| ==> parts[k].nrows == whole.nrows)
                                        && SumExtent(parts, Columns) == whole.ncols)
    ensures r.Ok? <==> (forall k :: 0 <= k < |parts| ==> parts[k].nrows == whole.nrows)
                       && SumExtent(parts, Columns) == whole.ncols
                       && AllOf(parts, whole.dtype)
    ensures r.Err? ==> r.error == ValueError || r.error == TypeError
    ensures r.Ok? ==> r.value.BySizes? && |r.value.extents| == |parts| && forall k :: 0 <= k < |parts| ==> r.value.extents[k] == parts[k].ncols
    ensures r.Ok? ==> |r.value.pointers| == |parts| && forall k :: 0 <= k < |parts| ==> r.value.pointers[k] == parts[k].data
  {
    r := Stack(whole, parts, Columns);
  }

  /** `assign_vstack(context, matrices)`. */
  method AssignVstack(whole: Matrix, parts: seq<Matrix>) returns (r: Result<StackCall>)
    ensures r == Err(ValueError) <==> !((forall k :: 0 <= k < |parts| ==> parts[k].ncols == whole.ncols)
                                        && SumExtent(parts, Rows) == whole.nrows)
    ensures r.Ok? <==> (forall k :: 0 <= k < |parts| ==> parts[k].ncols == whole.ncols)
                       && SumExtent(parts, Rows) == whole.nrows
                       && AllOf(parts, whole.dtype)
    ensures r.Err? ==> r.error == ValueError || r.error == TypeError
    ensures r.Ok? ==> r.value.BySizes? && |r.value.extents| == |parts| && forall k :: 0 <= k < |parts| ==> r.value.extents[k] == parts[k].nrows
    ensures r.Ok? ==> |r.value.pointers| == |parts| && forall k :: 0 <= k < |parts| ==> r.value.pointers[k] == parts[k].data
  {
    r := Stack(whole, parts, Rows);
  }

  /** Every slice ends within extent e. */
  predicate EndsWithin(slices: seq<(int, int)>, e: int) {
    forall k :: 0 <= k < |slices| ==> slices[k].1 <= e
  }

  /** The (start, end) pairs flattened into a ctypes array of 2n ints: the
      unused tail is zero, and more pairs than parts raise IndexError. */
  function SliceTable(slices: seq<(int, int)>, n: int): (r: Result<seq<int>>)
    ensures r.Ok? <==> |slices| <= n
    ensures r.Err? ==> r.error == IndexError
    ensures r.Ok? ==> |r.value| == 2 * n
    ensures r.Ok? ==> forall k :: 0 <= k < |slices| ==> r.value[2 * k] == slices[k].0 && r.value[2 * k + 1] == slices[k].1
    ensures r.Ok? ==> forall p :: 2 * |slices| <= p < 2 * n ==> r.value[p] == 0
  {
    if |slices| > n then Err(IndexError)
    else Ok(seq(2 * n, p requires 0 <= p < 2 * n =>
                  if p >= 2 * |slices| then 0
                  else if p % 2 == 0 then slices[p / 2].0
                  else slices[p / 2].1))
  }

  /** The slice check of `hsplit`/`vsplit`: ValueError when the largest
      slice end passes the whole's extent; the starts are not checked. */
  method CheckSlices(whole: Matrix, n: int, slices: seq<(int, int)>, axis: Axis) returns (r: Result<seq<int>>)
    requires |slices| > 0
    ensures (r == Err(ValueError)) <==> exists k :: 0 <= k < |slices| && slices[k].1 > Extent(whole, axis)
    ensures (r == Err(IndexError)) <==> EndsWithin(slices, Extent(whole, axis)) && |slices| > n
    ensures r.Ok? <==> EndsWithin(slices, Extent(whole, axis)) && |slices| <= n
    ensures r.Ok? ==> r == SliceTable(slices, n)
  {
    // The source starts from minus infinity; with at least one slice the
    // maximum is the same when started from the first end.
    var maxEnd := slices[0].1;
    var i := 0;
    while i < |slices|
      invariant 0 <= i <= |slices|
      invariant forall k :: 0 <= k < i ==> slices[k].1 <= maxEnd
      invariant exists k :: 0 <= k < |slices| && (k < i || k == 0) && slices[k].1 == maxEnd
    {
      maxEnd := if slices[i].1 > maxEnd then slices[i].1 else maxEnd;
      i := i + 1;
    }
    if maxEnd > Extent(whole, axis) {
      return Err(ValueError);
    }
    r := SliceTable(slices, n);
  }

  /** `hsplit`/`vsplit(context, matrices, slices)`. With slices: the slice
      check (ValueError), then the slice table (IndexError for more pairs
      than parts), then the pointer table (TypeError for a part of another
      element type). A missing or empty slice list falls back to `Stack`. */
  method Split(whole: Matrix, parts: seq<Matrix>, slices: Option<seq<(int, int)>>, axis: Axis) returns (r: Result<StackCall>)
    ensures slices.Some? && |slices.value| > 0 ==>
              var s := slices.value;
              && (r == Err(ValueError) <==> !EndsWithin(s, Extent(whole, axis)))
              && (r == Err(IndexError) <==> EndsWithin(s, Extent(whole, axis)) && |s| > |parts|)
              && (r == Err(TypeError) <==> EndsWithin(s, Extent(whole, axis)) && |s| <= |parts| && !AllOf(parts, whole.dtype))
              && (r.Ok? <==> EndsWithin(s, Extent(whole, axis)) && |s| <= |parts| && AllOf(parts, whole.dtype))
    ensures slices.Some? && |slices.value| > 0 && r.Ok? ==>
              r.value.BySlices? && Ok(r.value.bounds) == SliceTable(slices.value, |parts|)
    ensures !(slices.Some? && |slices.value| > 0) ==>
              && (r == Err(ValueError) <==> !Stackable(whole, parts, axis))
              && (r == Err(TypeError) <==> Stackable(whole, parts, axis) && !AllOf(parts, whole.dtype))
              && (r.Ok? <==> Stackable(whole, parts, axis) && AllOf(parts, whole.dtype))
    ensures !(slices.Some? && |slices.value| > 0) && r.Ok? ==>
              && r.value.BySizes? && |r.value.extents| == |parts|
              && forall k :: 0 <= k < |parts| ==> r.value.extents[k] == Extent(parts[k], axis)
    ensures r.Ok? ==> |r.value.pointers| == |parts| && forall k :: 0 <= k < |parts| ==> r.value.pointers[k] == parts[k].data
  {
    if slices.Some? && |slices.value| > 0 {
      var t := CheckSlices(whole, |parts|, slices.value, axis);
      if t.Err? {
        return Err(t.error);
      }
      var p := PointerTable(parts, |parts|, whole.dtype);
      if p.Err? {
        return Err(p.error);
      }
      r := Ok(BySlices(t.value, p.value));
    } else {
      r := Stack(whole, parts, axis);
    }
  }

  /** `hsplit(context, matrices, col_slices)`. */
  method Hsplit(whole: Matrix, parts: seq<Matrix>, colSlices: Option<seq<(int, int)>>) returns (r: Result<StackCall>)
    ensures colSlices.Some? && |colSlices.value| > 0 ==>
              var s := colSlices.value;
              && (r == Err(ValueError) <==> exists k :: 0 <= k < |s| && s[k].1 > whole.ncols)
              && (r == Err(IndexError) <==> EndsWithin(s, whole.ncols) && |s| > |parts|)
              && (r == Err(TypeError) <==> EndsWithin(s, whole.ncols) && |s| <= |parts| && !AllOf(parts, whole.dtype))
              && (r.Ok? <==> EndsWithin(s, whole.ncols) && |s| <= |parts| && AllOf(parts, whole.dtype))
    ensures colSlices.Some? && |colSlices.value| > 0 && r.Ok? ==>
              r.value.BySlices? && Ok(r.value.bounds) == SliceTable(colSlices.value, |parts|)
    ensures !(colSlices.Some? && |colSlices.value| > 0) ==>
              var fits := (forall k :: 0 <= k < |parts| ==> parts[k].nrows == whole.nrows)
                          && SumExtent(parts, Columns) == whole.ncols;
              && (r == Err(ValueError) <==> !fits)
              && (r == Err(TypeError) <==> fits && !AllOf(parts, whole.dtype))
              && (r.Ok? <==> fits && AllOf(parts, whole.dtype))
    ensures !(colSlices.Some? && |colSlices.value| > 0) && r.Ok? ==>
              && r.value.BySizes? && |r.value.extents| == |parts|
              && forall k :: 0 <= k < |parts| ==> r.value.extents[k] == parts[k].ncols
    ensures r.Ok? ==> |r.value.pointers| == |parts| && forall k :: 0 <= k < |parts| ==> r.value.pointers[k] == parts[k].data
  {
    r := Split(whole, parts, colSlices, Columns);
  }

  /** `vsplit(context, matrices, row_slices)`. */
  method Vsplit(whole: Matrix, parts: seq<Matrix>, rowSlices: Option<seq<(int, int)>>) returns (r: Result<StackCall>)
    ensures rowSlices.Some? && |rowSlices.value| > 0 ==>
              var s := rowSlices.value;
              && (r == Err(ValueError) <==> exists k :: 0 <= k < |s| && s[k].1 > whole.nrows)
              && (r == Err(IndexError) <==> EndsWithin(s, whole.nrows) && |s| > |parts|)
              && (r == Err(TypeError) <==> EndsWithin(s, whole.nrows) && |s| <= |parts| && !AllOf(parts, whole.dtype))
              && (r.Ok? <==> EndsWithin(s, whole.nrows) && |s| <= |parts| && AllOf(parts, whole.dtype))
    ensures rowSlices.Some? && |rowSlices.value| > 0 && r.Ok? ==>
              r.value.BySlices? && Ok(r.value.bounds) == SliceTable(rowSlices.value, |parts|)
    ensures !(rowSlices.Some? && |rowSlices.value| > 0) ==>
              var fits := (forall k :: 0 <= k < |parts| ==> parts[k].ncols == whole.ncols)
                          && SumExtent(parts, Rows) == whole.nrows;
              && (r == Err(ValueError) <==> !fits)
              && (r == Err(TypeError) <==> fits && !AllOf(parts, whole.dtype))
              && (r.Ok? <==> fits && AllOf(parts, whole.dtype))
    ensures !(rowSlices.Some? && |rowSlices.value| > 0) && r.Ok? ==>
              && r.value.BySizes? && |r.value.extents| == |parts|
              && forall k :: 0 <= k < |parts| ==> r.value.extents[k] == parts[k].nrows
    ensures r.Ok? ==> |r.value.pointers| == |parts| && forall k :: 0 <= k < |parts| ==> r.value.pointers[k] == parts[k].data
  {
    r := Split(whole, parts, rowSlices, Rows);
  }

  // ---------------------------------------------------------------------
  // tile
  // ---------------------------------------------------------------------

  /** The copies `tile` issues: `copies` calls of `s_copy`, each copying
      `length` elements of the source with unit increment to a run
      starting at `Start(c)` with increment `inc` (in elements). */
  datatype TilePlan = TilePlan(axis: int, copies: int, length: int, inc: int)

  /** `tile`'s checks: along axis 0 the source must be one row of the
      whole's width, along axis 1 one column of its height; any other
      axis raises ValueError. */
  function TileCheck(whole: Matrix, axis: int, a: Matrix): (r: Result<TilePlan>)
    ensures r.Ok? <==> (axis == 0 && a.nrows == 1 && a.ncols == whole.ncols)
                       || (axis == 1 && a.ncols == 1 && a.nrows == whole.nrows)
    ensures r.Err? ==> r.error == ValueError
    ensures r.Ok? ==> r.value.axis == axis && Nelems(a) == r.value.length
  {
    if axis == 0 then
      if a.nrows != 1 then Err(ValueError)
      else if whole.ncols != a.ncols then Err(ValueError)
      else Ok(TilePlan(0, whole.nrows, whole.ncols, whole.nrows))
    else if axis == 1 then
      if a.ncols != 1 then Err(ValueError)
      else if whole.nrows != a.nrows then Err(ValueError)
      else Ok(TilePlan(1, whole.ncols, whole.nrows, 1))
    else
      Err(ValueError)
  }

  /** Where the c-th copy of a tile plan starts: row c or column c. */
  function CopyStart(whole: Matrix, plan: TilePlan, c: int): int {
    if plan.axis == 0 then RowAddr(whole, c) else ColumnAddr(whole, c)
  }

  /** The cell the k-th element of the c-th copy lands in. */
  function TileTarget(whole: Matrix, plan: TilePlan, c: int, k: int): int {
    if plan.axis == 0 then ElementAddr(whole, c, k) else ElementAddr(whole, k, c)
  }

  /** Address of the k-th element of a run at `base` with increment `inc`. */
  function RunAddr(base: int, inc: int, k: int): int {
    base + k * inc * ElemSize
  }

  /** The handle's packed extent is present in memory. */
  ghost predicate Backed<V>(mem: map<int, V>, m: Matrix) {
    forall t :: 0 <= t < Nelems(m) ==> LinearAddr(m, t) in mem
  }

  /** Two handles' packed extents do not overlap. */
  predicate Disjoint(m: Matrix, a: Matrix) {
    m.data + Nbytes(m) <= a.data || a.data + Nbytes(a) <= m.data
  }

  /** `cublas.s_copy(n, x, incx, y, incy)` with a positive destination
      increment: y[k * incy] := x[k * incx] for k < n, every source value
      read from memory as the call finds it. */
  method SCopy<V>(mem: map<int, V>, n: int, x: int, incx: int, y: int, incy: int) returns (r: map<int, V>)
    requires incy > 0
    requires forall k :: 0 <= k < n ==> RunAddr(x, incx, k) in mem && RunAddr(y, incy, k) in mem
    ensures r.Keys == mem.Keys
    ensures forall k :: 0 <= k < n ==> r[RunAddr(y, incy, k)] == mem[RunAddr(x, incx, k)]
    ensures forall p :: p in mem && (forall k :: 0 <= k < n ==> p != RunAddr(y, incy, k)) ==> r[p] == mem[p]
  {
    r := mem;
    var k := 0;
    while k < n
      invariant 0 <= k && (k == 0 || k <= n)
      invariant r.Keys == mem.Keys
      invariant forall t :: 0 <= t < k ==> r[RunAddr(y, incy, t)] == mem[RunAddr(x, incx, t)]
      invariant forall p :: p in mem && (forall t :: 0 <= t < k ==> p != RunAddr(y, incy, t)) ==> r[p] == mem[p]
    {
      forall t | 0 <= t < k
        ensures RunAddr(y, incy, t) != RunAddr(y, incy, k)
      {
        RunStepsDistinct(y, incy, t, k);
      }
      r := r[RunAddr(y, incy, k) := mem[RunAddr(x, incx, k)]];
      k := k + 1;
    }
  }

  lemma RunStepsDistinct(y: int, inc: int, t: int, k: int)
    requires inc > 0 && t < k
    ensures RunAddr(y, inc, t) < RunAddr(y, inc, k)
  {
    assert k * inc - t * inc == (k - t) * inc;
    MulAtLeast(inc, k - t);
  }

  /** The k-th destination of the c-th copy is the tile target (c, k). */
  lemma CopyLandsOnTarget(whole: Matrix, plan: TilePlan, c: int, k: int)
    requires plan.axis == 0 ==> plan.inc == whole.nrows
    requires plan.axis != 0 ==> plan.inc == 1
    ensures RunAddr(CopyStart(whole, plan, c), plan.inc, k) == TileTarget(whole, plan, c, k)
  {
  }

  /** Tile targets of in-range copies are in the whole's packed extent
      and distinct. */
  lemma {:induction false} TileTargetsDistinct(whole: Matrix, plan: TilePlan, c: int, k: int, c': int, k': int)
    requires plan.axis == 0 ==> plan.copies == whole.nrows && plan.length == whole.ncols
    requires plan.axis != 0 ==> plan.copies == whole.ncols && plan.length == whole.nrows
    requires 0 <= c < plan.copies && 0 <= k < plan.length
    requires 0 <= c' < plan.copies && 0 <= k' < plan.length
    ensures whole.data <= TileTarget(whole, plan, c, k) < whole.data + Nbytes(whole)
    ensures TileTarget(whole, plan, c, k) == TileTarget(whole, plan, c', k') <==> c == c' && k == k'
  {
    if plan.axis == 0 {
      ElementInExtent(whole, c, k);
      ElementAddrInjective(whole, c, k, c', k');
    } else {
      ElementInExtent(whole, k, c);
      ElementAddrInjective(whole, k, c, k', c');
    }
  }

  /** The cell p is a target of one of the first `done` copies. */
  ghost predicate Written(whole: Matrix, plan: TilePlan, done: int, p: int) {
    exists c, k :: 0 <= c < done && 0 <= k < plan.length && p == TileTarget(whole, plan, c, k)
  }

  /** `tile(context, axis, a)`: after the checks, every row (axis 0) or
      column (axis 1) of the whole is overwritten with `a`. When `a` does
      not overlap the whole, cell (i, j) ends up holding a's j-th (axis 0)
      or i-th (axis 1) element; no cell outside the targets changes. */
  method Tile<V>(mem: map<int, V>, whole: Matrix, axis: int, a: Matrix) returns (r: Result<map<int, V>>)
    requires Backed(mem, whole) && Backed(mem, a)
    ensures r.Ok? <==> TileCheck(whole, axis, a).Ok?
    ensures r.Err? ==> r.error == ValueError
    ensures r.Ok? ==> r.value.Keys == mem.Keys
    ensures r.Ok? ==> forall p :: p in mem && !(whole.data <= p < whole.data + Nbytes(whole)) ==> r.value[p] == mem[p]
    ensures r.Ok? && Disjoint(whole, a) && axis == 0 ==>
              forall i, j :: 0 <= i < whole.nrows && 0 <= j < whole.ncols ==>
                ElementAddr(whole, i, j) in r.value && r.value[ElementAddr(whole, i, j)] == mem[LinearAddr(a, j)]
    ensures r.Ok? && Disjoint(whole, a) && axis == 1 ==>
              forall i, j :: 0 <= i < whole.nrows && 0 <= j < whole.ncols ==>
                ElementAddr(whole, i, j) in r.value && r.value[ElementAddr(whole, i, j)] == mem[LinearAddr(a, i)]
  {
    var check := TileCheck(whole, axis, a);
    if check.Err? {
      return Err(check.error);
    }
    var plan := check.value;
    var m := mem;
    var c := 0;
    while c < plan.copies
      invariant 0 <= c && (c == 0 || c <= plan.copies)
      invariant m.Keys == mem.Keys
      invariant forall p :: p in mem && !Written(whole, plan, c, p) ==> m[p] == mem[p]
      invariant Disjoint(whole, a) ==>
                  forall c', k :: 0 <= c' < c && 0 <= k < plan.length ==>
                    TileTarget(whole, plan, c', k) in m && m[TileTarget(whole, plan, c', k)] == mem[LinearAddr(a, k)]
    {
      forall k | 0 <= k < plan.length
        ensures RunAddr(a.data, 1, k) == LinearAddr(a, k) && LinearAddr(a, k) in m
        ensures RunAddr(CopyStart(whole, plan, c), plan.inc, k) == TileTarget(whole, plan, c, k)
        ensures TileTarget(whole, plan, c, k) in m
        ensures Disjoint(whole, a) ==> m[LinearAddr(a, k)] == mem[LinearAddr(a, k)]
      {
        CopyLandsOnTarget(whole, plan, c, k);
        TileTargetsDistinct(whole, plan, c, k, c, k);
        TargetIsLinear(whole, plan, c, k);
        if Disjoint(whole, a) {
          NotWrittenOutsideExtent(whole, plan, c, LinearAddr(a, k));
        }
      }
      var m' := SCopy(m, plan.length, a.data, 1, CopyStart(whole, plan, c), plan.inc);
      forall p | p in mem && !Written(whole, plan, c + 1, p)
        ensures m'[p] == mem[p]
      {
        forall k | 0 <= k < plan.length
          ensures p != RunAddr(CopyStart(whole, plan, c), plan.inc, k)
        {
          CopyLandsOnTarget(whole, plan, c, k);
        }
      }
      forall c', k | 0 <= c' < c + 1 && 0 <= k < plan.length && Disjoint(whole, a)
        ensures TileTarget(whole, plan, c', k) in m' && m'[TileTarget(whole, plan, c', k)] == mem[LinearAddr(a, k)]
      {
        TargetIsLinear(whole, plan, c', k);
        if c' < c {
          forall k' | 0 <= k' < plan.length
            ensures TileTarget(whole, plan, c', k) != RunAddr(CopyStart(whole, plan, c), plan.inc, k')
          {
            CopyLandsOnTarget(whole, plan, c, k');
            TileTargetsDistinct(whole, plan, c', k, c, k');
          }
        }
      }
      m := m';
      c := c + 1;
    }
    forall p | p in mem && !(whole.data <= p < whole.data + Nbytes(whole))
      ensures m[p] == mem[p]
    {
      NotWrittenOutsideExtent(whole, plan, c, p);
    }
    if Disjoint(whole, a) {
      forall i, j | 0 <= i < whole.nrows && 0 <= j < whole.ncols
        ensures axis == 0 ==> ElementAddr(whole, i, j) in m && m[ElementAddr(whole, i, j)] == mem[LinearAddr(a, j)]
        ensures axis == 1 ==> ElementAddr(whole, i, j) in m && m[ElementAddr(whole, i, j)] == mem[LinearAddr(a, i)]
      {
        if axis == 0 {
          assert ElementAddr(whole, i, j) == TileTarget(whole, plan, i, j);
        } else {
          assert ElementAddr(whole, i, j) == TileTarget(whole, plan, j, i);
        }
      }
    }
    r := Ok(m);
  }

  /** A tile target is one of the whole's packed cells. */
  lemma TargetIsLinear(whole: Matrix, plan: TilePlan, c: int, k: int)
    requires plan.axis == 0 ==> plan.copies == whole.nrows && plan.length == whole.ncols
    requires plan.axis != 0 ==> plan.copies == whole.ncols && plan.length == whole.nrows
    requires 0 <= c < plan.copies && 0 <= k < plan.length
    ensures exists t :: 0 <= t < Nelems(whole) && TileTarget(whole, plan, c, k) == LinearAddr(whole, t)
  {
    if plan.axis == 0 {
      ElementInExtent(whole, c, k);
      assert TileTarget(whole, plan, c, k) == LinearAddr(whole, ElementIndex(whole.nrows, c, k));
    } else {
      ElementInExtent(whole, k, c);
      assert TileTarget(whole, plan, c, k) == LinearAddr(whole, ElementIndex(whole.nrows, k, c));
    }
  }

  /** Cells outside the whole's packed extent are never written. */
  lemma NotWrittenOutsideExtent(whole: Matrix, plan: TilePlan, done: int, p: int)
    requires plan.axis == 0 ==> plan.copies == whole.nrows && plan.length == whole.ncols
    requires plan.axis != 0 ==> plan.copies == whole.ncols && plan.length == whole.nrows
    requires done == 0 || done <= plan.copies
    requires !(whole.data <= p < whole.data + Nbytes(whole))
    ensures !Written(whole, plan, done, p)
  {
    forall c, k | 0 <= c < done && 0 <= k < plan.length
      ensures p != TileTarget(whole, plan, c, k)
    {
      TileTargetsDistinct(whole, plan, c, k, c, k);
    }
  }

  // ---------------------------------------------------------------------
  // Elementwise operations: broadcast branches and kernel choice
  // ---------------------------------------------------------------------

  /** The kernel `add_scaled` enqueues. */
  datatype AddScaledCall =
    | RowBroadcast(nrows: int, ncols: int, alpha: real)   // matrix_vector_row_addition
    | Axpy(n: int, alpha: real)                           // cublas axpy over nelems

  /** The operands broadcast as the row-broadcast rule intends: the same
      shape, or a single row as wide as the whole. */
  predicate RowBroadcastable(whole: Matrix, a: Matrix) {
    (a.nrows == whole.nrows && a.ncols == whole.ncols) || (a.nrows == 1 && a.ncols == whole.ncols)
  }

  /** `add_scaled(context, alpha, a)`: `self += alpha * a`. A one-row `a`
      against a whole of another height is broadcast along the rows and
      must match the width (ValueError otherwise). Every other pair goes
      to axpy over the whole's nelems, with no shape check at all. */
  function AddScaled(whole: Matrix, alpha: real, a: Matrix): (r: Result<AddScaledCall>)
    ensures r.Err? <==> whole.nrows != 1 && a.nrows == 1 && whole.ncols != a.ncols
    ensures r.Err? ==> r.error == ValueError
    ensures r.Ok? && r.value.RowBroadcast? <==> whole.nrows != 1 && a.nrows == 1 && whole.ncols == a.ncols
    ensures r.Ok? && r.value.RowBroadcast? ==> r.value.nrows == whole.nrows && r.value.ncols == Nelems(a)
    ensures r.Ok? && r.value.Axpy? ==> r.value.n == Nelems(whole)
    ensures r.Ok? ==> r.value.alpha == alpha
  {
    if whole.nrows != 1 && a.nrows == 1 then
      if whole.ncols != a.ncols then Err(ValueError)
      else Ok(RowBroadcast(whole.nrows, whole.ncols, alpha))
    else
      Ok(Axpy(Nelems(whole), alpha))
  }

  /** Every pair the broadcast rule admits is accepted; among the rest,
      only a one-row operand of the wrong width is rejected, and a
      mismatched pair that is not one row (2 x 3 against 3 x 2, say)
      reaches axpy. */
  lemma AddScaledAdmits(whole: Matrix, alpha: real, a: Matrix)
    ensures RowBroadcastable(whole, a) ==> AddScaled(whole, alpha, a).Ok?
    ensures AddScaled(whole, alpha, a).Err? ==> !RowBroadcastable(whole, a)
    ensures a.nrows != 1 ==> AddScaled(whole, alpha, a) == Ok(Axpy(Nelems(whole), alpha))
  {
  }

  /** `add(context, a)` is `add_scaled` with 1.0, `sub(context, a)` with
      -1.0: the same branch and extents, opposite sign. */
  function Add(whole: Matrix, a: Matrix): (r: Result<AddScaledCall>)
    ensures r.Ok? <==> AddScaled(whole, -1.0, a).Ok?
    ensures r.Err? ==> r.error == ValueError
    ensures r.Ok? ==> r.value == AddScaled(whole, -1.0, a).value.(alpha := 1.0)
    ensures r.Ok? && r.value.RowBroadcast? <==> whole.nrows != 1 && a.nrows == 1 && whole.ncols == a.ncols
    ensures r.Ok? && r.value.RowBroadcast? ==> r.value == RowBroadcast(whole.nrows, whole.ncols, 1.0)
    ensures r.Ok? && r.value.Axpy? ==> r.value == Axpy(Nelems(whole), 1.0)
  {
    AddScaled(whole, 1.0, a)
  }

  function Sub(whole: Matrix, a: Matrix): (r: Result<AddScaledCall>)
    ensures r.Ok? <==> Add(whole, a).Ok?
    ensures r.Ok? ==> r.value.alpha == -1.0 && r.value == Add(whole, a).value.(alpha := -1.0)
  {
    AddScaled(whole, -1.0, a)
  }

  /** The Hadamard-product kernels: `add_hprod` accumulates
      (`self = a.*b[.*c] + alpha*self`) over the whole's nelems,
      `assign_hprod` assigns over `a`'s nelems. */
  datatype HadamardCall =
    | AddHadamard(factors: nat, n: int, alpha: real)
    | AssignHadamard(factors: nat, n: int)
    | ColumnBroadcastHprod(nrows: int, ncols: int)   // matrix_vector_column_hprod

  /** `add_hprod(context, a, b, c, alpha)`: three factors when `c` is
      given, two otherwise. */
  function AddHprod(whole: Matrix, a: Matrix, b: Matrix, c: Option<Matrix>, alpha: real): (r: HadamardCall)
    ensures r.AddHadamard? && r.n == Nelems(whole) && r.alpha == alpha
    ensures r.factors == 3 <==> c.Some?
    ensures r.factors == 2 <==> c.None?
  {
    AddHadamard(if c.Some? then 3 else 2, Nelems(whole), alpha)
  }

  /** `assign_hprod(context, a, b, c)`: like add_hprod, but sized by `a`. */
  function AssignHprod(whole: Matrix, a: Matrix, b: Matrix, c: Option<Matrix>): (r: HadamardCall)
    ensures r.AssignHadamard? && r.n == Nelems(a)
    ensures r.factors == 3 <==> c.Some?
    ensures r.factors == 2 <==> c.None?
  {
    AssignHadamard(if c.Some? then 3 else 2, Nelems(a))
  }

  /** How many of the optional operands are given. */
  function Present(xs: seq<Option<Matrix>>): nat {
    if |xs| == 0 then 0 else (if xs[0].Some? then 1 else 0) + Present(xs[1..])
  }

  /** Both Hadamard kernels multiply exactly the operands they are given:
      the factor count is the number of operands present among a, b and c,
      whatever the whole, and the same for accumulating and assigning. */
  lemma HprodFactorsArePresentOperands(whole: Matrix, a: Matrix, b: Matrix, c: Option<Matrix>, alpha: real)
    ensures AddHprod(whole, a, b, c, alpha).factors == Present([Some(a), Some(b), c])
    ensures AssignHprod(whole, a, b, c).factors == Present([Some(a), Some(b), c])
  {
    assert [Some(a), Some(b), c][1..] == [Some(b), c];
    assert [Some(b), c][1..] == [c];
    assert Present([c]) == if c.Some? then 1 else 0 by {
      assert [c][1..] == [];
    }
  }

  /** `hprod(context, a)`: `self = self .* a`. A one-column `a` against a
      whole of another width is broadcast along the columns and must match
      the height (ValueError otherwise); every other pair becomes
      `add_hprod(self, a, alpha=0)` with no shape check. */
  function Hprod(whole: Matrix, a: Matrix): (r: Result<HadamardCall>)
    ensures r.Err? <==> whole.ncols != 1 && a.ncols == 1 && whole.nrows != a.nrows
    ensures r.Err? ==> r.error == ValueError
    ensures r.Ok? && r.value.ColumnBroadcastHprod? <==> whole.ncols != 1 && a.ncols == 1 && whole.nrows == a.nrows
    ensures r.Ok? && r.value.ColumnBroadcastHprod? ==> r.value.nrows == Nelems(a) && r.value.ncols == whole.ncols
    ensures r.Ok? && !r.value.ColumnBroadcastHprod? ==> r.value == AddHadamard(2, Nelems(whole), 0.0)
  {
    if whole.ncols != 1 && a.ncols == 1 then
      if whole.nrows != a.nrows then Err(ValueError)
      else Ok(ColumnBroadcastHprod(whole.nrows, whole.ncols))
    else
      Ok(AddHprod(whole, whole, a, None, 0.0))
  }

  /** `hprod` is `add_hprod` transposed: it broadcasts a column exactly
      where `add_scaled` broadcasts a row of the transposed operands. */
  lemma HprodMirrorsAddScaled(whole: Matrix, a: Matrix)
    ensures var t := whole.(nrows := whole.ncols, ncols := whole.nrows);
            var ta := a.(nrows := a.ncols, ncols := a.nrows);
            (Hprod(whole, a).Err? <==> AddScaled(t, 1.0, ta).Err?)
            && (Hprod(whole, a).Ok? && Hprod(whole, a).value.ColumnBroadcastHprod?
                <==> AddScaled(t, 1.0, ta).Ok? && AddScaled(t, 1.0, ta).value.RowBroadcast?)
  {
  }

  /** The elementwise two-operand kernels. */
  datatype PairCall = ScaledAddition(n: int, alpha: real) | ScaledSubtraction(n: int, alpha: real)

  /** The only shapes `assign_scaled_addition` and
      `assign_scaled_subtraction` reject: different heights with equal
      widths. */
  predicate PairRejected(a: Matrix, b: Matrix) {
    a.nrows != b.nrows && a.ncols == b.ncols
  }

  /** `assign_scaled_addition(context, alpha, a, b)`: `self = alpha*(a + b)`
      over the whole's nelems. */
  function AssignScaledAddition(whole: Matrix, alpha: real, a: Matrix, b: Matrix): (r: Result<PairCall>)
    ensures r.Err? <==> PairRejected(a, b)
    ensures r.Err? ==> r.error == ValueError
    ensures r.Ok? ==> r.value.ScaledAddition? && r.value.n == Nelems(whole) && r.value.alpha == alpha
  {
    if a.nrows != b.nrows && a.ncols == b.ncols then Err(ValueError)
    else Ok(ScaledAddition(Nelems(whole), alpha))
  }

  /** `assign_scaled_subtraction(context, alpha, a, b)`: `self = alpha*(a - b)`. */
  function AssignScaledSubtraction(whole: Matrix, alpha: real, a: Matrix, b: Matrix): (r: Result<PairCall>)
    ensures r.Err? <==> PairRejected(a, b)
    ensures r.Err? ==> r.error == ValueError
    ensures r.Ok? ==> r.value.ScaledSubtraction? && r.value.n == Nelems(whole) && r.value.alpha == alpha
  {
    if a.nrows != b.nrows && a.ncols == b.ncols then Err(ValueError)
    else Ok(ScaledSubtraction(Nelems(whole), alpha))
  }

  /** The pair check is no shape check: operands of the same shape are
      accepted, and so is every pair whose widths differ, whatever the
      heights — a 2 x 3 against a 3 x 2 operand among them. */
  lemma PairCheckAcceptsMismatchedShapes(whole: Matrix, alpha: real, a: Matrix, b: Matrix)
    ensures a.nrows == b.nrows && a.ncols == b.ncols ==>
              AssignScaledAddition(whole, alpha, a, b).Ok? && AssignScaledSubtraction(whole, alpha, a, b).Ok?
    ensures a.ncols != b.ncols ==>
              AssignScaledAddition(whole, alpha, a, b).Ok? && AssignScaledSubtraction(whole, alpha, a, b).Ok?
  {
  }

  /** `assign_add(context, a, b)`. */
  function AssignAdd(whole: Matrix, a: Matrix, b: Matrix): (r: Result<PairCall>)
    ensures r.Err? <==> PairRejected(a, b)
    ensures r.Err? ==> r.error == ValueError
    ensures r.Ok? ==> r.value == ScaledAddition(Nelems(whole), 1.0)
  {
    AssignScaledAddition(whole, 1.0, a, b)
  }

  /** `assign_sub(context, a, b)` as written: it calls the scaled
      addition, so it enqueues exactly what `assign_add` does. */
  function AssignSub(whole: Matrix, a: Matrix, b: Matrix): (r: Result<PairCall>)
    ensures r == AssignAdd(whole, a, b)
    ensures r.Ok? ==> r.value.ScaledAddition?
  {
    AssignScaledAddition(whole, 1.0, a, b)
  }

  /** `assign_sub` as evidently intended: `self = a - b`. */
  function AssignSubIntended(whole: Matrix, a: Matrix, b: Matrix): (r: Result<PairCall>)
    ensures r.Err? <==> PairRejected(a, b)
    ensures r.Err? ==> r.error == ValueError
    ensures r.Ok? ==> r.value == ScaledSubtraction(Nelems(whole), 1.0)
  {
    AssignScaledSubtraction(whole, 1.0, a, b)
  }

  /** For every accepted pair, `assign_sub` as written enqueues an addition
      where the intended version enqueues a subtraction. */
  lemma AssignSubAdds(whole: Matrix, a: Matrix, b: Matrix)
    requires !PairRejected(a, b)
    ensures AssignSub(whole, a, b).Ok? && AssignSub(whole, a, b).value.ScaledAddition?
    ensures AssignSubIntended(whole, a, b).Ok? && AssignSubIntended(whole, a, b).value.ScaledSubtraction?
    ensures AssignSub(whole, a, b) != AssignSubIntended(whole, a, b)
  {
  }

  /** `assign_sum_hprod(context, a, b, c, d, e, ..., k)`: the kernel is
      picked by which optional operands are present: all eleven when `k`
      is given (an absent one in between has no `.data`: AttributeError),
      five when `e` is, four otherwise; extra operands are ignored. */
  function SumHprodOperands(e: Option<Matrix>, f: Option<Matrix>, g: Option<Matrix>, h: Option<Matrix>,
                            i: Option<Matrix>, j: Option<Matrix>, k: Option<Matrix>): (r: Result<nat>)
    ensures k.Some? ==> (r.Ok? <==> e.Some? && f.Some? && g.Some? && h.Some? && i.Some? && j.Some?)
    ensures k.Some? && r.Ok? ==> r.value == 11
    ensures r.Err? ==> r.error == AttributeError && k.Some?
    ensures k.None? && e.Some? ==> r == Ok(5)
    ensures k.None? && e.None? ==> r == Ok(4)
  {
    if k.Some? then
      if e.Some? && f.Some? && g.Some? && h.Some? && i.Some? && j.Some? then Ok(11)
      else Err(AttributeError)
    else if e.Some? then Ok(5)
    else Ok(4)
  }

  /** The operands after `d`, in parameter order. */
  function Optional(e: Option<Matrix>, f: Option<Matrix>, g: Option<Matrix>, h: Option<Matrix>,
                    i: Option<Matrix>, j: Option<Matrix>, k: Option<Matrix>): seq<Option<Matrix>> {
    [e, f, g, h, i, j, k]
  }

  /** The n-operand kernel reads the first n operands, a, b, c, d and then
      the first n - 4 optional ones: every operand it reads is present,
      the next optional operand that would select a larger kernel is
      absent, and the call fails exactly when `k` is given but some
      optional operand is not. */
  lemma SumHprodReadsFirstOperands(e: Option<Matrix>, f: Option<Matrix>, g: Option<Matrix>, h: Option<Matrix>,
                                   i: Option<Matrix>, j: Option<Matrix>, k: Option<Matrix>)
    ensures var r := SumHprodOperands(e, f, g, h, i, j, k);
            var opt := Optional(e, f, g, h, i, j, k);
            && (r.Ok? ==> 4 <= r.value <= 4 + |opt|)
            && (r.Ok? ==> forall x :: x in opt[..r.value - 4] ==> x.Some?)
            && (r == Ok(4) ==> opt[0].None?)
            && (r.Ok? && r.value < 11 ==> opt[|opt| - 1].None?)
            && (r.Err? <==> opt[|opt| - 1].Some? && exists x :: x in opt && x.None?)
  {
    var opt := Optional(e, f, g, h, i, j, k);
    if k.Some? && !(e.Some? && f.Some? && g.Some? && h.Some? && i.Some? && j.Some?) {
      if e.None? { assert opt[0] == e; }
      else if f.None? { assert opt[1] == f; }
      else if g.None? { assert opt[2] == g; }
      else if h.None? { assert opt[3] == h; }
      else if i.None? { assert opt[4] == i; }
      else { assert opt[5] == j; }
    }
  }

  // ---------------------------------------------------------------------
  // Matrix products
  // ---------------------------------------------------------------------

  /** The BLAS call `add_dot` enqueues. */
  datatype BlasCall =
    | Gemv(opA: string, m: int, n: int, lda: int, alpha: real, beta: real)
    | Gemm(opA: string, opB: string, m: int, n: int, k: int, lda: int, ldb: int, ldc: int, alpha: real, beta: real)

  /** Rows and columns of op(x): x itself for "N", its transpose otherwise. */
  function OpRows(x: Matrix, op: string): int {
    if op == "N" then x.nrows else x.ncols
  }

  function OpCols(x: Matrix, op: string): int {
    if op == "N" then x.ncols else x.nrows
  }

  /** `add_dot(context, a, b, op_a, op_b, alpha, beta)`:
      `self = alpha * op(a) * op(b) + beta * self`. A one-column result
      with an untransposed `b` is a gemv over `a`'s stored shape; anything
      else is a gemm of the whole's shape whose inner dimension is the
      height of op(b). */
  function AddDot(whole: Matrix, a: Matrix, b: Matrix, opA: string, opB: string, alpha: real, beta: real): (r: BlasCall)
    ensures r.Gemv? <==> whole.ncols == 1 && opB == "N"
    ensures r.Gemv? ==> r == Gemv(opA, a.nrows, a.ncols, a.nrows, alpha, beta)
    ensures r.Gemm? ==> r.opA == opA && r.opB == opB
    ensures r.Gemm? ==> r.m == whole.nrows && r.n == whole.ncols && r.k == OpRows(b, opB)
    ensures r.Gemm? ==> r.lda == a.nrows && r.ldb == b.nrows && r.ldc == whole.nrows
    ensures r.alpha == alpha && r.beta == beta
  {
    if whole.ncols == 1 && opB == "N" then
      Gemv(opA, a.nrows, a.ncols, a.nrows, alpha, beta)
    else
      var k := if opB == "N" then b.nrows else b.ncols;
      Gemm(opA, opB, whole.nrows, whole.ncols, k, a.nrows, b.nrows, whole.nrows, alpha, beta)
  }

  /** `assign_dot` is `add_dot` with beta 0. */
  function AssignDot(whole: Matrix, a: Matrix, b: Matrix, opA: string, opB: string): (r: BlasCall)
    ensures r.beta == 0.0 && r.alpha == 1.0
    ensures r.Gemv? <==> whole.ncols == 1 && opB == "N"
    ensures r.Gemv? ==> r == Gemv(opA, a.nrows, a.ncols, a.nrows, 1.0, 0.0)
    ensures r.Gemm? ==> r.opA == opA && r.opB == opB
    ensures r.Gemm? ==> r.m == whole.nrows && r.n == whole.ncols && r.k == OpRows(b, opB)
    ensures r.Gemm? ==> r.lda == a.nrows && r.ldb == b.nrows && r.ldc == whole.nrows
  {
    AddDot(whole, a, b, opA, opB, 1.0, 0.0)
  }

  /** For conforming operands (op(a) is m x k, op(b) is k x n and the
      whole m x n) the gemm gets exactly the product's dimensions. */
  lemma GemmMatchesProductShape(whole: Matrix, a: Matrix, b: Matrix, opA: string, opB: string, alpha: real, beta: real)
    requires whole.nrows == OpRows(a, opA) && whole.ncols == OpCols(b, opB)
    requires OpCols(a, opA) == OpRows(b, opB)
    requires !(whole.ncols == 1 && opB == "N")
    ensures var r := AddDot(whole, a, b, opA, opB, alpha, beta);
            r.Gemm? && r.m == OpRows(a, opA) && r.n == OpCols(b, opB) && r.k == OpCols(a, opA)
  {
  }

  // ---------------------------------------------------------------------
  // Other checks
  // ---------------------------------------------------------------------

  /** `tanh_sigm(context, out, derivative, axis)`: the axis must be 0 or 1;
      the kernel gets the whole's shape and whether a derivative matrix
      is given. */
  datatype TanhSigmCall = TanhSigmCall(derivative: bool, axis: int, nrows: int, ncols: int)

  function TanhSigm(whole: Matrix, withDerivative: bool, axis: int): (r: Result<TanhSigmCall>)
    ensures r.Ok? <==> axis == 0 || axis == 1
    ensures r.Err? ==> r.error == ValueError
    ensures r.Ok? ==> r.value == TanhSigmCall(withDerivative, axis, whole.nrows, whole.ncols)
  {
    if axis != 0 && axis != 1 then Err(ValueError)
    else Ok(TanhSigmCall(withDerivative, axis, whole.nrows, whole.ncols))
  }

  /** `tanh_sigm` takes the same axes `tile` does: every axis along which
      some source can be tiled into the whole, and only those. */
  lemma TanhSigmAxesAreTileAxes(whole: Matrix, withDerivative: bool, axis: int, a: Matrix)
    ensures TileCheck(whole, axis, a).Ok? ==> TanhSigm(whole, withDerivative, axis).Ok?
    ensures TanhSigm(whole, withDerivative, axis).Ok? ==>
              TileCheck(whole, axis, if axis == 0 then whole.(nrows := 1) else whole.(ncols := 1)).Ok?
  {
  }

  /** The kernel `tanh_sigm` enqueues depends on the caller only through
      its shape: handles of the same shape, whatever their data, strides,
      element type or ownership, get the same call, and the two accepted
      axes give calls that differ in the axis alone. */
  lemma TanhSigmUsesCallerShape(w1: Matrix, w2: Matrix, withDerivative: bool, axis: int)
    requires w1.nrows == w2.nrows && w1.ncols == w2.ncols
    ensures TanhSigm(w1, withDerivative, axis) == TanhSigm(w2, withDerivative, axis)
    ensures TanhSigm(w1, withDerivative, 0).Ok? && TanhSigm(w1, withDerivative, 1).Ok?
    ensures TanhSigm(w1, withDerivative, 1).value == TanhSigm(w1, withDerivative, 0).value.(axis := 1)
    ensures TanhSigm(w1, withDerivative, axis).Ok? ==>
              var c := TanhSigm(w1, withDerivative, axis).value;
              c.nrows * c.ncols == Nelems(w2) && c.derivative == withDerivative
  {
  }
}

=== FILE: matrix_list.dfy ===
/** `MatrixList`: a list of matrices with a settable logical length. Code
    that processes variable-length sequences allocates one matrix per
    maximal time step, then calls `set_length` on every step and iterates
    over the logical prefix only. The Python object is mutable; here
    `set_length` returns the updated record. */
module MatrixList {
  import opened Py

  datatype MatrixList<T> = MatrixList(matrices: seq<T>, length: int)

  /** What `list[key]` returns: one element for an int key, a plain list
      for a slice key. */
  datatype Item<T> = One(m: T) | Many(ms: seq<T>)

  /** `len(list)`. Python's `len` rejects a negative `__len__` result with
      ValueError. */
  function Len<T>(l: MatrixList<T>): (r: Result<nat>)
    ensures r.Ok? <==> l.length >= 0
    ensures r.Ok? ==> r.value == l.length
    ensures r.Err? ==> r.error == ValueError
  {
    if l.length >= 0 then Ok(l.length) else Err(ValueError)
  }

  /** `iter(list)`: the underlying list sliced with `[:length]`, so the
      logical length is clamped to the storage, and a negative length
      counts back from the end of the storage as any Python slice bound. */
  function Iter<T>(l: MatrixList<T>): (r: seq<T>)
    ensures 0 <= l.length <= |l.matrices| ==> r == l.matrices[..l.length]
    ensures l.length > |l.matrices| ==> r == l.matrices
    ensures l.length < 0 <= |l.matrices| + l.length ==> r == l.matrices[..|l.matrices| + l.length]
    ensures l.length < 0 && |l.matrices| + l.length < 0 ==> r == []
  {
    SliceWithoutStep(l.matrices, None, Some(l.length));
    SliceSeq(l.matrices, None, Some(l.length), None).value
  }

  /** A new list: its logical length is the number of matrices given, and
      iteration yields all of them. */
  function New<T>(matrices: seq<T>): (l: MatrixList<T>)
    ensures l.matrices == matrices
    ensures Len(l) == Ok(|matrices|)
    ensures Iter(l) == matrices
  {
    MatrixList(matrices, |matrices|)
  }

  /** `set_length(n)`: only the logical length changes. A non-negative n
      becomes what `len` reports, and iteration then yields the first n
      matrices when the storage holds that many. */
  function SetLength<T>(l: MatrixList<T>, n: int): (r: MatrixList<T>)
    ensures r.matrices == l.matrices
    ensures n >= 0 ==> Len(r) == Ok(n)
    ensures 0 <= n <= |l.matrices| ==> Iter(r) == l.matrices[..n]
  {
    l.(length := n)
  }

  /** `list[key]`. An int in [-length, length) selects `matrices[key % length]`
      (negative keys count back from the end of the logical prefix); any
      other int raises IndexError, and so does a selected position the
      storage does not reach. A slice slices the whole storage, whatever
      the logical length. Any other key raises TypeError. */
  function GetItem<T>(l: MatrixList<T>, key: Value): (r: Result<Item<T>>)
    ensures key.Int? && 0 <= key.i < l.length <= |l.matrices| ==> r == Ok(One(l.matrices[key.i]))
    ensures key.Int? && -l.length <= key.i < 0 && l.length <= |l.matrices| ==> r == Ok(One(l.matrices[l.length + key.i]))
    ensures key.Int? && !(-l.length <= key.i < l.length) ==> r == Err(IndexError)
    ensures key.Int? && 0 <= key.i < l.length && |l.matrices| <= key.i ==> r == Err(IndexError)
    ensures key.Int? && -l.length <= key.i < l.length ==>
              var p := if key.i < 0 then l.length + key.i else key.i;
              r == (if p < |l.matrices| then Ok(One(l.matrices[p])) else Err(IndexError))
    ensures key.Int? && r.Ok? ==> r.value.One? && r.value.m in l.matrices
    ensures key.Slice? ==> (r.Ok? <==> key.step != Some(0))
    ensures key.Slice? && r.Ok? ==> r.value.Many? && forall m :: m in r.value.ms ==> m in l.matrices
    ensures r.Err? && key.Slice? ==> r.error == ValueError
    ensures !key.Int? && !key.Slice? ==> r == Err(TypeError)
  {
    match key
    case Slice(start, stop, step) =>
      var s :- SliceSeq(l.matrices, start, stop, step);
      Ok(Many(s))
    case Int(k) =>
      if -l.length <= k < l.length then
        // Python's % agrees with Dafny's for the positive divisor here.
        var i := k % l.length;
        WrapIndex(k, l.length);
        if i < |l.matrices| then Ok(One(l.matrices[i])) else Err(IndexError)
      else
        Err(IndexError)
    case _ => Err(TypeError)
  }

  /** `k % n` for k in [-n, n) is k itself or k + n. */
  lemma WrapIndex(k: int, n: int)
    requires -n <= k < n
    ensures 0 <= k ==> k % n == k
    ensures k < 0 ==> k % n == k + n
  {
    if k < 0 {
      assert k == n * -1 + (k + n);
    } else {
      assert k == n * 0 + k;
    }
  }

  /** With no logical length at all, every int key raises IndexError:
      the range test fails before `k % length` could divide by zero. */
  lemma EmptyListRejectsEveryInt<T>(l: MatrixList<T>, k: int)
    requires l.length <= 0
    ensures GetItem(l, Int(k)) == Err(IndexError)
  {
  }

  /** Indexing agrees with iteration: `list[k]` is the k-th matrix
      iteration produces, and `list[-j]` the j-th from its end. */
  lemma IndexAgreesWithIteration<T>(l: MatrixList<T>, k: int)
    requires 0 <= l.length <= |l.matrices|
    requires -l.length <= k < l.length
    ensures |Iter(l)| == l.length
    ensures k >= 0 ==> GetItem(l, Int(k)) == Ok(One(Iter(l)[k]))
    ensures k < 0 ==> GetItem(l, Int(k)) == Ok(One(Iter(l)[|Iter(l)| + k]))
  {
  }

  /** Slicing ignores the logical length: the result is the same for
      every length, and without a step it is the contiguous run of the
      storage between the normalised bounds. */
  lemma SliceIgnoresLength<T>(l: MatrixList<T>, n: int, start: Option<int>, stop: Option<int>, step: Option<int>)
    ensures GetItem(SetLength(l, n), Slice(start, stop, step)) == GetItem(l, Slice(start, stop, step))
    ensures step.None? ==>
              var lo := ClampBound(|l.matrices|, start, 0, false);
              var hi := ClampBound(|l.matrices|, stop, |l.matrices|, false);
              GetItem(l, Slice(start, stop, step)) == Ok(Many(if lo <= hi then l.matrices[lo..hi] else []))
  {
    SliceWithoutStep(l.matrices, start, stop);
  }
}

=== FILE: py.dfy ===
/** The small part of Python's semantics the matrix handles rely on:
    optional values, exceptions as an error-or-result, the objects that can
    appear as a subscript, truthiness of `None`-or-int, and Python 2 list
    slicing (`PySlice_GetIndicesEx`). */
module Py {

  datatype Option<+T> = None | Some(value: T)

  /** The Python exception classes the modelled code can raise. */
  datatype Error = ValueError | IndexError | TypeError | AttributeError

  /** A call either returns a value or raises one of the exceptions above. */
  datatype Result<+T> = Ok(value: T) | Err(error: Error) {
    predicate IsFailure() { Err? }

    function PropagateFailure<U>(): Result<U>
      requires Err?
    {
      Err(error)
    }

    function Extract(): T
      requires Ok?
    {
      value
    }
  }

  /** A Python object used as a subscript: `m[k]`, `m[s:t]`, `m[a, b]`.
      `Other` stands for any object that supports no subscripting itself
      (a float, say). */
  datatype Value =
    | NoneValue
    | Int(i: int)
    | Slice(start: Option<int>, stop: Option<int>, step: Option<int>)
    | Tuple(items: seq<Value>)
    | Other

  /** `slice(None)`, i.e. the bare `:`. */
  const FullSlice: Value := Slice(None, None, None)

  /** Truthiness of an attribute that is `None` or an int: `if x:`. */
  predicate Truthy(x: Option<int>) {
    x.Some? && x.value != 0
  }

  /** `x if x else d` for an attribute that is `None` or an int. */
  function OrElse(x: Option<int>, d: int): (r: int)
    ensures Truthy(x) ==> r == x.value
    ensures !Truthy(x) ==> r == d
  {
    if Truthy(x) then x.value else d
  }

  /** `key[k]` for k in {0, 1}: tuples are indexable, every other key object
      raises TypeError, a tuple that is too short raises IndexError. */
  function Subscript(key: Value, k: nat): (r: Result<Value>)
    ensures r.Ok? <==> key.Tuple? && k < |key.items|
    ensures r.Ok? ==> r.value == key.items[k]
    ensures r.Err? && key.Tuple? ==> r.error == IndexError
    ensures r.Err? && !key.Tuple? ==> r.error == TypeError
  {
    match key
    case Tuple(items) => if k < |items| then Ok(items[k]) else Err(IndexError)
    case _ => Err(TypeError)
  }

  /** One bound of a slice normalised against a sequence of length `len`,
      as Python 2's `PySlice_GetIndicesEx` does it: negative bounds count
      from the end, then the bound is clamped to [0, len] for a positive
      step and to [-1, len - 1] for a negative one. */
  function ClampBound(len: nat, bound: Option<int>, default: int, negativeStep: bool): (r: int)
    ensures bound.None? ==> r == default
    ensures bound.Some? && !negativeStep ==> 0 <= r <= len
    ensures bound.Some? && negativeStep ==> -1 <= r <= len - 1
    ensures bound.Some? && 0 <= bound.value < len ==> r == bound.value
    ensures bound.Some? && bound.value < 0 <= bound.value + len ==> r == bound.value + len
  {
    if bound.None? then default
    else
      var b := if bound.value < 0 then bound.value + len else bound.value;
      if b < 0 then (if negativeStep then -1 else 0)
      else if b >= len then (if negativeStep then len - 1 else len)
      else b
  }

  /** lo, lo + step, ... while below hi. */
  function Ascending(lo: int, hi: int, step: int): (r: seq<int>)
    requires step > 0
    ensures forall k :: 0 <= k < |r| ==> lo <= r[k] < hi
    ensures lo >= hi <==> r == []
    ensures lo < hi ==> r[0] == lo
    ensures step == 1 && lo <= hi ==> |r| == hi - lo && forall k :: 0 <= k < |r| ==> r[k] == lo + k
    decreases hi - lo
  {
    if lo >= hi then [] else [lo] + Ascending(lo + step, hi, step)
  }

  /** lo, lo + step, ... while above hi (step negative). */
  function Descending(lo: int, hi: int, step: int): (r: seq<int>)
    requires step < 0
    ensures forall k :: 0 <= k < |r| ==> hi < r[k] <= lo
    decreases lo - hi
  {
    if lo <= hi then [] else [lo] + Descending(lo + step, hi, step)
  }

  /** The positions `s[start:stop:step]` selects in a sequence of length `len`. */
  function SliceIndices(len: nat, start: Option<int>, stop: Option<int>, step: int): (r: seq<int>)
    requires step != 0
    ensures forall k :: 0 <= k < |r| ==> 0 <= r[k] < len
  {
    if step > 0 then
      Ascending(ClampBound(len, start, 0, false), ClampBound(len, stop, len, false), step)
    else
      Descending(ClampBound(len, start, len - 1, true), ClampBound(len, stop, -1, true), step)
  }

  /** Python 2 list slicing `s[start:stop:step]`; a zero step raises ValueError. */
  function SliceSeq<T>(s: seq<T>, start: Option<int>, stop: Option<int>, step: Option<int>): (r: Result<seq<T>>)
    ensures r.Ok? <==> step != Some(0)
    ensures r.Err? ==> r.error == ValueError
    ensures r.Ok? ==> forall x :: x in r.value ==> x in s
  {
    if step == Some(0) then Err(ValueError)
    else
      var idx := SliceIndices(|s|, start, stop, if step.Some? then step.value else 1);
      Ok(seq(|idx|, k requires 0 <= k < |idx| => s[idx[k]]))
  }

  /** With no step, slicing is the contiguous subsequence between the
      normalised bounds (empty when they cross). */
  lemma SliceWithoutStep<T>(s: seq<T>, start: Option<int>, stop: Option<int>)
    ensures var lo := ClampBound(|s|, start, 0, false);
            var hi := ClampBound(|s|, stop, |s|, false);
            SliceSeq(s, start, stop, None) == Ok(if lo <= hi then s[lo..hi] else [])
  {
    var lo := ClampBound(|s|, start, 0, false);
    var hi := ClampBound(|s|, stop, |s|, false);
    var idx := SliceIndices(|s|, start, stop, 1);
    assert 0 <= lo <= |s| && 0 <= hi <= |s|;
    if lo <= hi {
      assert |idx| == hi - lo;
      var r := seq(|idx|, k requires 0 <= k < |idx| => s[idx[k]]);
      assert forall k :: 0 <= k < |r| ==> r[k] == s[lo..hi][k];
      assert r == s[lo..hi];
      assert SliceSeq(s, start, stop, None) == Ok(r);
    } else {
      assert idx == [];
      assert |SliceSeq(s, start, stop, None).value| == 0;
    }
  }
}

=== FILE: temp_memory.dfy ===
/** The per-context scratch pool `_get_temp_memory` keeps for tables of
    device pointers, and how the batched operations carve it up. The two
    module-level dicts (capacity and pointer per context) are one map from
    context to `Region`; the pointer `cuda_malloc` returns is a parameter. */
module TempMemory {
  import opened Py
  import opened GpuMatrix

  /** `sizeof(POINTER(c_float))` on a 64-bit host: one table entry, in bytes. */
  const PointerSize: int := 8

  /** Entries allocated beyond the request on every growth. */
  const Slack: int := 10

  /** One context's scratch region: how many pointer entries it holds and
      where it starts (0 is the NULL pointer). */
  datatype Region = Region(capacity: int, pointer: int)

  /** The pool after a request, the pointer handed out, and the pointer
      freed on the way, if any. */
  datatype Grant<C> = Grant(pool: map<C, Region>, pointer: int, freed: Option<int>)

  /** A request for n entries needs a new region: the context has none, or
      a smaller one. */
  predicate Grows<C>(pool: map<C, Region>, ctx: C, n: int) {
    ctx !in pool || n > pool[ctx].capacity
  }

  /** `_get_temp_memory(context, N)`. A context's region is replaced only
      when N exceeds its capacity: the old one is freed (when its pointer
      is not NULL) and a region of N + 10 entries takes its place. The
      capacity never shrinks, covers N afterwards, and no other context's
      region changes. */
  function GetTempMemory<C>(pool: map<C, Region>, ctx: C, n: int, newPointer: int): (g: Grant<C>)
    ensures g.pool.Keys == pool.Keys + {ctx}
    ensures forall c :: c in pool && c != ctx ==> g.pool[c] == pool[c]
    ensures g.pool[ctx].capacity >= n
    ensures ctx in pool ==> g.pool[ctx].capacity >= pool[ctx].capacity
    ensures g.pointer == g.pool[ctx].pointer
    ensures !Grows(pool, ctx, n) ==> g.pool == pool && g.freed == None
    ensures Grows(pool, ctx, n) ==> g.pool[ctx] == Region(n + Slack, newPointer)
    ensures g.freed.Some? <==> ctx in pool && n > pool[ctx].capacity && pool[ctx].pointer != 0
    ensures g.freed.Some? ==> g.freed.value == pool[ctx].pointer
  {
    if Grows(pool, ctx, n) then
      var freed := if ctx in pool && pool[ctx].pointer != 0 then Some(pool[ctx].pointer) else None;
      Grant(pool[ctx := Region(n + Slack, newPointer)], newPointer, freed)
    else
      Grant(pool, pool[ctx].pointer, None)
  }

  /** One call of `_get_temp_memory`. */
  datatype Request<C> = Request(ctx: C, n: int, newPointer: int)

  /** The pool after a sequence of calls. */
  function Replay<C>(pool: map<C, Region>, reqs: seq<Request<C>>): map<C, Region>
    decreases |reqs|
  {
    if |reqs| == 0 then pool
    else Replay(GetTempMemory(pool, reqs[0].ctx, reqs[0].n, reqs[0].newPointer).pool, reqs[1..])
  }

  /** Over any sequence of calls, no context loses its region and no
      capacity shrinks. */
  lemma {:induction false} ReplayNeverShrinks<C>(pool: map<C, Region>, reqs: seq<Request<C>>)
    ensures forall c :: c in pool ==> c in Replay(pool, reqs) && Replay(pool, reqs)[c].capacity >= pool[c].capacity
    decreases |reqs|
  {
    if |reqs| > 0 {
      var g := GetTempMemory(pool, reqs[0].ctx, reqs[0].n, reqs[0].newPointer);
      ReplayNeverShrinks(g.pool, reqs[1..]);
    }
  }

  /** After a sequence of calls, every context's capacity covers every
      request it made. */
  lemma {:induction false} ReplayCoversEveryRequest<C>(pool: map<C, Region>, reqs: seq<Request<C>>)
    ensures forall k :: 0 <= k < |reqs| ==>
              reqs[k].ctx in Replay(pool, reqs) && Replay(pool, reqs)[reqs[k].ctx].capacity >= reqs[k].n
    decreases |reqs|
  {
    if |reqs| > 0 {
      var g := GetTempMemory(pool, reqs[0].ctx, reqs[0].n, reqs[0].newPointer);
      ReplayNeverShrinks(g.pool, reqs[1..]);
      ReplayCoversEveryRequest(g.pool, reqs[1..]);
      forall k | 1 <= k < |reqs|
        ensures reqs[k].ctx in Replay(pool, reqs) && Replay(pool, reqs)[reqs[k].ctx].capacity >= reqs[k].n
      {
        assert reqs[k] == reqs[1..][k - 1];
      }
    }
  }

  /** After a sequence of calls, a context's region is either the one it
      started with or was sized for one of its own requests, plus 10. */
  lemma {:induction false} ReplayCapacityFromRequest<C>(pool: map<C, Region>, reqs: seq<Request<C>>)
    ensures forall c :: c in Replay(pool, reqs) ==>
              (c in pool && Replay(pool, reqs)[c] == pool[c])
              || exists k :: 0 <= k < |reqs| && reqs[k].ctx == c && Replay(pool, reqs)[c].capacity == reqs[k].n + Slack
    decreases |reqs|
  {
    if |reqs| > 0 {
      var g := GetTempMemory(pool, reqs[0].ctx, reqs[0].n, reqs[0].newPointer);
      var rest := reqs[1..];
      ReplayCapacityFromRequest(g.pool, rest);
      forall c | c in Replay(pool, reqs)
        ensures (c in pool && Replay(pool, reqs)[c] == pool[c])
                || exists k :: 0 <= k < |reqs| && reqs[k].ctx == c && Replay(pool, reqs)[c].capacity == reqs[k].n + Slack
      {
        if exists k :: 0 <= k < |rest| && rest[k].ctx == c && Replay(g.pool, rest)[c].capacity == rest[k].n + Slack {
          var k :| 0 <= k < |rest| && rest[k].ctx == c && Replay(g.pool, rest)[c].capacity == rest[k].n + Slack;
          assert reqs[k + 1] == rest[k];
        } else if c == reqs[0].ctx && Grows(pool, c, reqs[0].n) {
          assert reqs[0].ctx == c && Replay(pool, reqs)[c].capacity == reqs[0].n + Slack;
        }
      }
    }
  }

  /** A pool that starts empty: every context that made a request holds a
      region sized for one of its requests and large enough for all. */
  lemma FromEmptyPool<C>(reqs: seq<Request<C>>, c: C)
    requires exists k :: 0 <= k < |reqs| && reqs[k].ctx == c
    ensures c in Replay(map[], reqs)
    ensures forall k :: 0 <= k < |reqs| && reqs[k].ctx == c ==> Replay(map[], reqs)[c].capacity >= reqs[k].n
    ensures exists k :: 0 <= k < |reqs| && reqs[k].ctx == c && Replay(map[], reqs)[c].capacity == reqs[k].n + Slack
  {
    ReplayCoversEveryRequest(map[], reqs);
    ReplayCapacityFromRequest(map[], reqs);
  }

  // ---------------------------------------------------------------------
  // Pointer tables in the pool
  // ---------------------------------------------------------------------

  /** The pool after a call and what the call enqueued, or raised. */
  datatype Outcome<C, T> = Outcome(pool: map<C, Region>, result: Result<T>)

  /** What `batch_horizontal_stack` hands the kernel: n, the shared
      extents read from the first matrices, and three tables of n device
      pointers uploaded into the scratch region. */
  datatype BatchStackCall = BatchStackCall(
    n: nat, nrows: int, xNcols: int, yNcols: int,
    xTable: int, yTable: int, outTable: int,
    xEntries: seq<int>, yEntries: seq<int>, outEntries: seq<int>)

  /** `batch_horizontal_stack(context, x_sequence, y_sequence, output_sequence)`.
      n is the number of outputs and the tables take the first output's
      element type. An empty output list raises IndexError, and the three
      host tables are built before the pool is touched: more x or y
      matrices than outputs raise IndexError there, a matrix of another
      element type TypeError. The pool then grows for 3n entries, and only
      then does an empty x or y list raise IndexError (reading its first
      matrix). The x, y and output tables sit at entry offsets 0, n and 2n
      of the region. */
  function BatchHorizontalStack<C>(pool: map<C, Region>, ctx: C, newPointer: int,
                                   xs: seq<Matrix>, ys: seq<Matrix>, outs: seq<Matrix>): (o: Outcome<C, BatchStackCall>)
    ensures outs == [] ==> o == Outcome(pool, Err(IndexError))
    ensures outs != [] && (|xs| > |outs| || |ys| > |outs|) ==>
              o.pool == pool && (o.result == Err(IndexError) || o.result == Err(TypeError))
    ensures outs != [] && (|xs| > |outs| || |ys| > |outs|) && AllOf(xs + ys + outs, outs[0].dtype) ==>
              o == Outcome(pool, Err(IndexError))
    ensures outs != [] && |xs| <= |outs| && |ys| <= |outs| && !AllOf(xs + ys + outs, outs[0].dtype) ==>
              o == Outcome(pool, Err(TypeError))
    ensures outs != [] && |xs| <= |outs| && |ys| <= |outs| && AllOf(xs + ys + outs, outs[0].dtype) ==>
              && o.pool == GetTempMemory(pool, ctx, 3 * |outs|, newPointer).pool
              && (o.result.Ok? <==> xs != [] && ys != [])
              && (o.result.Err? ==> o.result.error == IndexError)
    ensures o.result.Ok? ==>
              var c := o.result.value;
              && c.n == |outs| && c.nrows == outs[0].nrows && c.xNcols == xs[0].ncols && c.yNcols == ys[0].ncols
              && c.xTable == o.pool[ctx].pointer
              && c.yTable == c.xTable + c.n * PointerSize
              && c.outTable == c.yTable + c.n * PointerSize
              && PointerTable(xs, c.n, outs[0].dtype) == Ok(c.xEntries)
              && PointerTable(ys, c.n, outs[0].dtype) == Ok(c.yEntries)
              && PointerTable(outs, c.n, outs[0].dtype) == Ok(c.outEntries)
  {
    if outs == [] then Outcome(pool, Err(IndexError))
    else
      var n := |outs|;
      var d := outs[0].dtype;
      AllOfConcat(xs, ys, d);
      AllOfConcat(xs + ys, outs, d);
      var xEntries := PointerTable(xs, n, d);
      if xEntries.Err? then Outcome(pool, Err(xEntries.error))
      else
        var yEntries := PointerTable(ys, n, d);
        if yEntries.Err? then Outcome(pool, Err(yEntries.error))
        else
          var outEntries := PointerTable(outs, n, d);
          if outEntries.Err? then Outcome(pool, Err(outEntries.error))
          else
            var g := GetTempMemory(pool, ctx, 3 * n, newPointer);
            if xs == [] || ys == [] then Outcome(g.pool, Err(IndexError))
            else
              var x := g.pointer;
              var y := x + n * PointerSize;
              var out := y + n * PointerSize;
              Outcome(g.pool, Ok(BatchStackCall(n, outs[0].nrows, xs[0].ncols, ys[0].ncols, x, y, out,
                                                xEntries.value, yEntries.value, outEntries.value)))
  }

  /** The three uploads of n pointers each land inside the scratch region
      the call leaves behind, one after another without overlap. */
  lemma BatchTablesFit<C>(pool: map<C, Region>, ctx: C, newPointer: int, xs: seq<Matrix>, ys: seq<Matrix>, outs: seq<Matrix>)
    requires BatchHorizontalStack(pool, ctx, newPointer, xs, ys, outs).result.Ok?
    ensures var o := BatchHorizontalStack(pool, ctx, newPointer, xs, ys, outs);
            var c := o.result.value;
            && o.pool[ctx].pointer <= c.xTable
            && c.xTable + c.n * PointerSize <= c.yTable
            && c.yTable + c.n * PointerSize <= c.outTable
            && c.outTable + c.n * PointerSize <= o.pool[ctx].pointer + o.pool[ctx].capacity * PointerSize
  {
    var g := GetTempMemory(pool, ctx, 3 * |outs|, newPointer);
    assert g.pool[ctx].capacity >= 3 * |outs|;
  }

  /** One uploaded table of n pointers, as the single-table callers
      (`add_sum`, `assign_sum`, `assign_sequential_mean_pooling`,
      `slice_rows_batch`, `sliced_rows_batch_scaled_add`,
      `sequentially_tile`) hand it to their kernels. */
  datatype TableCall = TableCall(n: nat, table: int, entries: seq<int>)

  /** The upload those callers share: n is the number of matrices and the
      table takes the caller's element type d. A matrix of another element
      type raises TypeError before the pool is touched; otherwise the pool
      is asked for n entries and the n data pointers are copied to the
      start of the region, where they fit. */
  function UploadTable<C>(pool: map<C, Region>, ctx: C, newPointer: int, ms: seq<Matrix>, d: DType): (o: Outcome<C, TableCall>)
    ensures o.result.Ok? <==> AllOf(ms, d)
    ensures o.result.Err? ==> o == Outcome(pool, Err(TypeError))
    ensures o.result.Ok? ==> o.pool == GetTempMemory(pool, ctx, |ms|, newPointer).pool
    ensures o.result.Ok? ==> o.result.value.n == |ms| && o.result.value.table == o.pool[ctx].pointer
    ensures o.result.Ok? ==> |o.result.value.entries| == |ms| && forall k :: 0 <= k < |ms| ==> o.result.value.entries[k] == ms[k].data
    ensures o.result.Ok? ==> o.result.value.table + |ms| * PointerSize <= o.pool[ctx].pointer + o.pool[ctx].capacity * PointerSize
  {
    var entries := PointerTable(ms, |ms|, d);
    if entries.Err? then Outcome(pool, Err(entries.error))
    else
      var g := GetTempMemory(pool, ctx, |ms|, newPointer);
      Outcome(g.pool, Ok(TableCall(|ms|, g.pointer, entries.value)))
  }

  /** What `sequentially_tile` hands its kernel: the element count and
      data of `a`, and the uploaded targets. */
  datatype SequentialTileCall = SequentialTileCall(nelems: int, source: int, targets: TableCall)

  /** `sequentially_tile(context, matrices, a)`: every target must have
      `a`'s shape, or ValueError, and `a`'s element type, or TypeError,
      both before the pool is touched. */
  function SequentiallyTile<C>(pool: map<C, Region>, ctx: C, newPointer: int, ms: seq<Matrix>, a: Matrix): (o: Outcome<C, SequentialTileCall>)
    ensures o.result == Err(ValueError) <==> exists k :: 0 <= k < |ms| && (ms[k].nrows != a.nrows || ms[k].ncols != a.ncols)
    ensures o.result == Err(TypeError) <==>
              (forall k :: 0 <= k < |ms| ==> ms[k].nrows == a.nrows && ms[k].ncols == a.ncols) && !AllOf(ms, a.dtype)
    ensures o.result.Err? ==> o.pool == pool
    ensures o.result.Ok? ==> o.pool == GetTempMemory(pool, ctx, |ms|, newPointer).pool
    ensures o.result.Ok? ==> o.result.value.nelems == Nelems(a) && o.result.value.source == a.data
    ensures o.result.Ok? ==> |o.result.value.targets.entries| == |ms|
                             && forall k :: 0 <= k < |ms| ==> o.result.value.targets.entries[k] == ms[k].data
  {
    if exists k :: 0 <= k < |ms| && (ms[k].nrows != a.nrows || ms[k].ncols != a.ncols) then
      Outcome(pool, Err(ValueError))
    else
      var u := UploadTable(pool, ctx, newPointer, ms, a.dtype);
      if u.result.Err? then Outcome(pool, Err(u.result.error))
      else Outcome(u.pool, Ok(SequentialTileCall(Nelems(a), a.data, u.result.value)))
  }
}
